=== FILE: README.md ===
# Verified model of a Rust health checker and its warm-up exercises

This Dafny project models the deterministic logic of the repository's Rust programs:

- **final_project** is a concurrent HTTP health checker. The model covers:
  - its command-line parser and the defaults (16 workers, 5000 ms timeout, 0 retries, table output);
  - how `main` collects targets, either from the tail after `--` or from trimmed standard-input lines, and its exit with status 2 when there are none;
  - the probe outcome (`check_once`), where the status stays at the sentinel -1 exactly when the call failed;
  - the retry policy (`check_with_retries`), which retries on an error, a status of at least 500 or a negative status, allows at most `max_retries` extra attempts, and returns the last attempt;
  - the worker pool (`run_pool`), reduced to one sequential drain of the shared queue.
- **module_2/assignment2**: `most_frequent_word`, with its parallel `unique_words`/`counts` vectors and its strict-`>` tie-break.
- **module_1/assignment2**: `is_even`, the FizzBuzz label, and the sum and largest-element loops over an `i32` array.
- **module_1/assignment3**: `check_guess` and the guessing loop.

The network is an oracle: for each target and attempt number it says what the HTTP client reported, how long the attempt took, and when it finished. Threads are replaced by a sequential drain. Each claim on the queue is serialised by a mutex and each claimed target is probed on its own, so the drain yields the same set of outcomes as the threaded pool.

Files, one module each:

- `wrappers.dfy`: Option.
- `rust_int.dfy`: `i32`, and Rust's truncating `%`.
- `text.dfy`: Unicode whitespace, `trim` and `split_whitespace`.
- `decimal.dfy`: Rust's unsigned `parse`.
- `cli.dfy`: `Config` and `parse_args`.
- `targets.dfy`: target collection in `main`.
- `probe.dfy`: `check_once` and `check_with_retries`.
- `pool.dfy`: `run_pool` and the flow of `main`.
- `word_freq.dfy`, `basics.dfy`, `guessing.dfy`: the three smaller programs.

Three behaviours of the code that are easy to misread:

- A retried outcome reports only the elapsed time of its own (last) attempt, not the sum over attempts. `check_once` measures from its own start.
- A line whose first non-blank character is `#` is a comment too. The code trims the line before testing for `#`.
- A worker count of 0 is accepted by the parser. It becomes 1 at `workers.max(1)`.

## Model

| member | source | states |
|---|---|---|
| RustInt.RemZeroIffDivides | module_1/assignment2/src/main.rs:2 | For every positive divisor, Rust's truncating remainder is 0 exactly when the Euclidean one is, negative dividends included, so `n % 2 == 0` and the `% 3`/`% 5` tests mean divisibility |
| Basics.IsEven | module_1/assignment2/src/main.rs:1-3 | `is_even(n)` holds iff 2 divides n, for every `i32` including negatives |
| Basics.FizzBuzz | module_1/assignment2/src/main.rs:11-22 | Exactly one label per number: "FizzBuzz" iff divisible by 3 and 5, "Fizz" iff by 3 and not 5, "Buzz" iff by 5 and not 3, "" iff by neither |
| Basics.NumbersLabels | module_1/assignment2/src/main.rs:6-22 | The parity and the FizzBuzz label of each of the program's ten numbers, and of the negative inputs -4 and -7 |
| Basics.SumLoop | module_1/assignment2/src/main.rs:27-33 | When no running total overflows `i32`, the loop ends with the sum of all elements; invariant: sum of the prefix scanned |
| Basics.PrefixSumsBounded | module_1/assignment2/src/main.rs:27-33 | With non-negative elements every running total lies between 0 and the full sum |
| Basics.NumbersSum | module_1/assignment2/src/main.rs:6-33 | The program's array sums to 211 and no running total overflows |
| Basics.Largest | module_1/assignment2/src/main.rs:35-41 | For a non-empty array the result is an element and is at least every element |
| Basics.NumbersLargest | module_1/assignment2/src/main.rs:6-41 | For the program's array the only value meeting that contract is 50 |
| Guessing.CheckGuess | module_1/assignment3/src/main.rs:1-9 | 0 iff guess == secret, 1 iff guess > secret, -1 iff guess < secret |
| Guessing.CheckGuessAntisymmetric | module_1/assignment3/src/main.rs:1-9 | Swapping guess and secret negates the answer |
| Guessing.GuessingLoop | module_1/assignment3/src/main.rs:11-33 | For secret > 25 the loop ends after secret - 25 guesses (17 for 42); every earlier guess is reported too low and never too high; the last is a hit |
| Text.Trim | final_project/src/main.rs:192 | `trim` leaves no whitespace at either end, and is empty iff the line is all whitespace |
| Text.TrimIsMiddle | final_project/src/main.rs:192 | Trimming whitespace margins off a core returns exactly that core |
| Text.TrimIdempotent | final_project/src/main.rs:192 | Trimming twice is trimming once |
| Text.SplitWhitespace | module_2/assignment2/src/main.rs:2 | Every piece is a non-empty, whitespace-free word, and there are none iff the text is all whitespace |
| Text.SplitJoinRoundTrip | module_2/assignment2/src/main.rs:2 | Splitting words joined by single spaces gives the words back |
| Text.JoinWordsIsJoinWith | module_2/assignment2/src/main.rs:2 | Joining by single spaces is the general join with a one-space separator between each pair of words |
| Text.SplitLeadingWhitespace | module_2/assignment2/src/main.rs:2 | Whitespace in front of a text does not change its words |
| Text.SplitWordFirst | module_2/assignment2/src/main.rs:2 | A word followed by whitespace, or by nothing, is split off as the first word |
| Text.SplitPaddedRoundTrip | module_2/assignment2/src/main.rs:2 | Any words, separated by any non-empty runs of whitespace and with any whitespace before and after, split back into exactly those words |
| WordFreq.LeaderIsMostFrequent | module_2/assignment2/src/main.rs:9-31 | The running leader's count is the maximum number of occurrences of any word; for words present, the leader occurs exactly that often; no words gives ("", 0) |
| WordFreq.LeaderReachedFirst | module_2/assignment2/src/main.rs:14-28 | Tie-break: the leader reached the maximum count at a position where no word had reached it before |
| WordFreq.LeaderSnoc | module_2/assignment2/src/main.rs:14-17 | One more word changes the leader only when that word's count rises strictly above the leader's count |
| WordFreq.TallySeen | module_2/assignment2/src/main.rs:11-20 | A word already in `unique_words` gets its count raised by one, and the vectors still count every word exactly |
| WordFreq.TallyNew | module_2/assignment2/src/main.rs:22-29 | A new word is appended with count 1, and the vectors still hold distinct words with exact counts |
| WordFreq.CountsBelowLeader | module_2/assignment2/src/main.rs:3-30 | Loop invariant: no entry of `counts` exceeds `max_count` |
| WordFreq.UniqueMaximumLeads | module_2/assignment2/src/main.rs:9-31 | A word that occurs strictly more often than every other word is the result, with its count |
| WordFreq.FindWord | module_2/assignment2/src/main.rs:10-21 | The inner search finds a word iff it is in `unique_words`, and then at its first position |
| WordFreq.MostFrequentWord | module_2/assignment2/src/main.rs:1-32 | The loops compute the leader: ("", 0) for whitespace-only text; otherwise the most frequent word, occurring exactly `count` times, ties going to the first word to reach that count; invariants: parallel vectors, distinct words, exact counts, no count above `max_count` |
| WordFreq.SampleSplit | module_2/assignment2/src/main.rs:2-35 | The program's sentence splits into its thirteen words |
| WordFreq.SampleMostFrequent | module_2/assignment2/src/main.rs:35-37 | The program's sentence yields ("the", 3) |
| Decimal.ParseUnsigned | final_project/src/main.rs:80 | Parsing succeeds iff, after at most one leading `+`, the token is one or more ASCII digits whose value fits the target type, and it then gives that value |
| Decimal.ValueIgnoresLeadingZeros | final_project/src/main.rs:80 | Leading zeros do not change the value of a digit string |
| Decimal.ParsePaddedRoundTrip | final_project/src/main.rs:80 | A printed number with any leading zeros parses back to itself iff it fits the type |
| Decimal.ParsePaddedWithPlus | final_project/src/main.rs:80 | The same with a leading `+` |
| Decimal.ParseDecimalRoundTrip | final_project/src/main.rs:80-93 | A printed number parses back, with or without `+`, iff it fits the type |
| Cli.Step | final_project/src/main.rs:77-99 | One token: a value option consumes the next token and changes only its own field, and only when that token parses; `--json` sets json; anything else changes nothing |
| Cli.ParseFrom | final_project/src/main.rs:76-100 | Fields stay in range; a changed field was set by its option, at a position the scan inspects (not a consumed value), followed by a token that parses to the new value; json, once on, stays on |
| Cli.ParseArgs | final_project/src/main.rs:61-102 | Starting from the defaults 16/5000/0/false, a field differs from its default only through its own option at a position the scan inspects and a parsed value, and json is true only if the scan meets `--json` |
| Cli.ScanReaches | final_project/src/main.rs:76-100 | Once the scan reaches a position, the rest of the parse is the scan from there with the configuration built so far |
| Cli.WorkersOptionTakesEffect | final_project/src/main.rs:78-83 | A workers option the scan reaches, followed by a token that parses to n, makes the worker count n, whatever the earlier tokens set, when no later token is a workers option |
| Cli.TimeoutOptionTakesEffect | final_project/src/main.rs:84-89 | A timeout option the scan reaches, followed by a token that parses to n, makes the timeout n when no later token is a timeout option |
| Cli.RetriesOptionTakesEffect | final_project/src/main.rs:90-95 | A retries option the scan reaches, followed by a token that parses to n, makes the retry count n when no later token is a retries option |
| Cli.JsonOptionTakesEffect | final_project/src/main.rs:96 | A `--json` the scan reaches turns JSON output on, whatever follows |
| Cli.ValueTokenIsNotAnOption | final_project/src/main.rs:84-89 | In `-t -w 5` the `-w` is the timeout's value, so the worker count stays 16 |
| Cli.LeadingZerosAccepted | final_project/src/main.rs:78-83 | `-w 08` gives 8 workers |
| Cli.UnnamedFieldsKeepValue | final_project/src/main.rs:76-100 | A field keeps its value when no token names its option |
| Cli.ParseRenderRoundTrip | final_project/src/main.rs:72-102 | Every in-range configuration, written out as options, parses back to itself |
| Cli.MissingValueKeepsDefault | final_project/src/main.rs:78-83 | `-w` with no following token leaves the defaults |
| Cli.BadValueIsSkipped | final_project/src/main.rs:84-99 | An unparseable timeout is consumed and ignored, and scanning continues |
| Cli.ValueTokenIsConsumed | final_project/src/main.rs:78-83 | The token after `--workers` is consumed even when it is `--json` |
| Cli.NegativeValueRejected | final_project/src/main.rs:78-83 | `-w -4` leaves 16 workers |
| Cli.OverflowingValueRejected | final_project/src/main.rs:90-95 | `-r` followed by any number above `u32::MAX` leaves 0 retries |
| Cli.LastOccurrenceWins | final_project/src/main.rs:76-100 | In `-w 3 -x -w +8` the later `-w` overrides the earlier one and `-x` is skipped, giving 8 workers |
| Cli.ScanRunsPastSeparator | final_project/src/main.rs:74-100 | The option scan also reads the tokens after `--` |
| Targets.SeparatorFrom | final_project/src/main.rs:184 | Finds the first `--` at or after the start position, or reports that there is none |
| Targets.ArgTargets | final_project/src/main.rs:184-188 | With a `--`, the targets are exactly the tokens after its first occurrence; without one, there are none |
| Targets.StdinTargets | final_project/src/main.rs:189-197 | Every kept line is trimmed, non-empty and not a comment, and there are no more of them than input lines |
| Targets.StdinTargetsMembership | final_project/src/main.rs:191-195 | A string is a standard-input target iff some kept line trims to it |
| Targets.StdinTargetsAppend | final_project/src/main.rs:191-195 | The targets of two blocks of lines are those of the first followed by those of the second |
| Targets.StdinTargetsLineByLine | final_project/src/main.rs:191-195 | Each line contributes, in its place, its trimmed text if it is kept and nothing otherwise, so order and repeats follow the input |
| Targets.CollectTargets | final_project/src/main.rs:182-211 | Usage exit 2 iff both sources are empty; command-line targets win, and stdin is used only when they are absent |
| Targets.CommentAndBlankLinesDropped | final_project/src/main.rs:189-211 | With no command-line targets, the standard-input lines `  # note` (an indented comment) and a lone tab give no targets, hence exit 2 |
| Targets.EmptyTailReadsStdin | final_project/src/main.rs:184-197 | A trailing `--` with nothing after it falls back to trimmed standard input |
| Targets.TailTargetsWin | final_project/src/main.rs:184-189 | Targets after `--` are used and standard input is ignored |
| Probe.CheckOnce | final_project/src/main.rs:104-127 | error is Some iff the call failed, and status is -1 iff error is Some; otherwise the status is the response's |
| Probe.ShouldRetryOnProbes | final_project/src/main.rs:133-136 | On a probe outcome, a retry is called for iff the call failed or the status is at least 500 |
| Probe.RetryLoop | final_project/src/main.rs:131-140 | The loop makes between tries+1 and max+1 attempts, returns the last, retried every earlier one, and stops early only on a non-retryable outcome |
| Probe.CheckWithRetries | final_project/src/main.rs:129-142 | Between 1 and max_retries+1 probes; the result is the last probe's outcome; every earlier one called for a retry; stopping below the cap means the last did not |
| Probe.AttemptsAreFirstSuccess | final_project/src/main.rs:129-142 | The attempt count is exactly the first non-retryable position plus one, capped at max_retries+1 |
| Probe.NoRetriesMeansOneProbe | final_project/src/main.rs:129-141 | With max_retries = 0: one probe, its outcome unchanged, no sleep |
| Probe.FirstSuccessIsFinal | final_project/src/main.rs:134-136 | A first response below 500 gives one attempt whatever max_retries is |
| Probe.AllFailuresReportLast | final_project/src/main.rs:130-141 | If every attempt needs a retry, all max_retries+1 are made and the final one is reported with only its own elapsed time |
| Probe.Always503ThreeAttempts | final_project/src/main.rs:132-140 | An always-503 endpoint with two retries gets exactly three attempts and reports 503 |
| Probe.LastAttemptWins | final_project/src/main.rs:129-141 | Two timeouts then a 200: reported as the 200 with two retries, as the second timeout with one |
| Pool.SpawnedWorkers | final_project/src/main.rs:150 | At least one worker, and exactly the requested number when it is positive |
| Pool.Claim | final_project/src/main.rs:154-160 | A claim fails iff the queue is empty, otherwise it removes exactly the last target |
| Pool.RunPool | final_project/src/main.rs:144-176 | Draining the queue yields one outcome per target: the outcome URLs equal the input as a multiset, and each outcome is the retry policy's result, with the given retry count, for its claimed target |
| Pool.HealthCheck | final_project/src/main.rs:178-213 | Exit 2 with no probing iff there are no targets; otherwise exit 0 with one outcome per target, each the retry policy's result under the parsed retry count |

## Left out

- Threads, `Arc<Mutex<_>>`, the `mpsc` channel and `join` in `run_pool`. The drain is sequential. The claim order is the pop order, while the real arrival order is nondeterministic.
- Pool.RunPool: the result order is fixed (last target first), whereas the threaded pool's order depends on timing. Only the multiset of outcomes is meant to carry over.
- The HTTP client (`ureq`) and its connect, read and write timeouts. The client's verdict for each attempt is an oracle input, and the timeout is not passed to the oracle.
- How `ureq` classifies replies. The program uses the ureq 2.x API (`AgentBuilder`, with `call()` returning a `Result`). That client returns every 4xx or 5xx reply as `Err(Error::Status)`. In the program as built, such a reply therefore gets status -1 and an error text, and it is retried. The `status_code >= 500` test at final_project/src/main.rs:134 never fires. The model accepts any oracle, including one that delivers a 5xx as a response, so it covers both readings. With ureq 2.x, Probe.FirstSuccessIsFinal's "response below 500" covers only 1xx–3xx replies.
- `Instant` elapsed times and `SystemTime::now` timestamps. They are oracle values per attempt.
- The 300 ms `thread::sleep`. Only the number of pauses is modelled.
- JSON output through serde, the `ts_seconds` serializer, `print_row`, the table and usage text, and all `println!`/`eprintln!` output.
- Reading standard input. It is given as a sequence of lines. `lines()` splitting and the lines `.flatten()` drops on read errors are not modelled.
- Decimal.ParseUnsigned: `usize` is taken to be 64 bits wide.
- Basics.SumLoop: requires that no running total overflows `i32`. A debug build panics on overflow and a release build wraps; neither is modelled.
- Basics.Largest: requires a non-empty array. The source indexes `numbers[0]`, which would panic on an empty one.
- Guessing.GuessingLoop: requires secret > 25. For smaller secrets the source loop never hits and runs into `i32` overflow.
- Data_Fetcher (network fetching, JSON and floating-point prices, file appends, an endless polling loop) is not part of this model.
- module_3/assignment2 (process spawning and history files) is not part of this model.
- module_1/assignment1 (floating-point temperature conversion) is not part of this model.

=== FILE: basics.dfy ===
/**
 * The helpers of module_1/assignment2/src/main.rs: `is_even`, the FizzBuzz
 * label, and the sum and largest-element loops over an `i32` array.
 */
module Basics {
  import opened RustInt

  /** The array `main` works on. */
  const Numbers: seq<I32> := [3, 5, 8, 12, 15, 21, 25, 30, 42, 50]

  /** `is_even`: `n % 2 == 0` with Rust's remainder; exactly the multiples of 2, negatives included. */
  function IsEven(n: I32): (r: bool)
    ensures r <==> n % 2 == 0
  {
    RemZeroIffDivides(n, 2);
    Rem(n, 2) == 0
  }

  /** The label `main` prints after the parity. */
  function FizzBuzz(n: I32): (tag: string)
    ensures tag == "FizzBuzz" <==> n % 3 == 0 && n % 5 == 0
    ensures tag == "Fizz" <==> n % 3 == 0 && n % 5 != 0
    ensures tag == "Buzz" <==> n % 3 != 0 && n % 5 == 0
    ensures tag == "" <==> n % 3 != 0 && n % 5 != 0
  {
    RemZeroIffDivides(n, 3);
    RemZeroIffDivides(n, 5);
    if Rem(n, 3) == 0 && Rem(n, 5) == 0 then "FizzBuzz"
    else if Rem(n, 3) == 0 then "Fizz"
    else if Rem(n, 5) == 0 then "Buzz"
    else ""
  }

  /** The mathematical sum of a sequence. */
  function Sum(s: seq<int>): int {
    if |s| == 0 then 0 else Sum(s[..|s| - 1]) + s[|s| - 1]
  }

  /** Every running total stays within `i32`, so `sum += numbers[i]` cannot overflow. */
  predicate PrefixSumsFit(s: seq<I32>) {
    forall k :: 0 <= k <= |s| ==> I32_MIN <= Sum(s[..k]) <= I32_MAX
  }

  /** The `while _i < numbers.len()` loop: the total of the array. */
  method SumLoop(numbers: seq<I32>) returns (sum: I32)
    requires PrefixSumsFit(numbers)
    ensures sum == Sum(numbers)
  {
    sum := 0;
    var i := 0;
    while i < |numbers|
      invariant 0 <= i <= |numbers|
      invariant sum == Sum(numbers[..i])
    {
      assert numbers[..i + 1][..i] == numbers[..i];
      sum := sum + numbers[i];
      i := i + 1;
    }
    assert numbers[..i] == numbers;
  }

  lemma SumOfLongerPrefix(s: seq<int>, k: nat)
    requires k < |s|
    ensures Sum(s[..k + 1]) == Sum(s[..k]) + s[k]
  {
    assert s[..k + 1][..k] == s[..k];
  }

  /** With no negative elements, every running total lies between 0 and the full sum. */
  lemma {:induction false} PrefixSumsBounded(s: seq<int>, k: nat)
    requires forall j :: 0 <= j < |s| ==> s[j] >= 0
    requires k <= |s|
    ensures 0 <= Sum(s[..k]) <= Sum(s)
    decreases |s| - k
  {
    PrefixSumNonNegative(s, k);
    if k < |s| {
      SumOfLongerPrefix(s, k);
      PrefixSumsBounded(s, k + 1);
    } else {
      assert s[..k] == s;
    }
  }

  lemma {:induction false} PrefixSumNonNegative(s: seq<int>, k: nat)
    requires forall j :: 0 <= j < |s| ==> s[j] >= 0
    requires k <= |s|
    ensures Sum(s[..k]) >= 0
  {
    if k > 0 {
      SumOfLongerPrefix(s, k - 1);
      PrefixSumNonNegative(s, k - 1);
    }
  }

  /** The array in `main` sums to 211, without overflow on the way. */
  lemma NumbersSum()
    ensures PrefixSumsFit(Numbers)
    ensures Sum(Numbers) == 211
  {
    var s := Numbers;
    assert s[..0] == [];
    SumOfLongerPrefix(s, 0);
    SumOfLongerPrefix(s, 1);
    SumOfLongerPrefix(s, 2);
    SumOfLongerPrefix(s, 3);
    SumOfLongerPrefix(s, 4);
    SumOfLongerPrefix(s, 5);
    SumOfLongerPrefix(s, 6);
    SumOfLongerPrefix(s, 7);
    SumOfLongerPrefix(s, 8);
    SumOfLongerPrefix(s, 9);
    assert s[..10] == s;
    forall k | 0 <= k <= |s| ensures I32_MIN <= Sum(s[..k]) <= I32_MAX {
      PrefixSumsBounded(s, k);
    }
  }

  /**
   * The `largest` loop: starting from `numbers[0]` (which panics on an empty
   * array), keep any strictly larger element. The result is an element and
   * no element exceeds it.
   */
  method Largest(numbers: seq<I32>) returns (largest: I32)
    requires |numbers| > 0
    ensures largest in numbers
    ensures forall k :: 0 <= k < |numbers| ==> numbers[k] <= largest
  {
    largest := numbers[0];
    var i := 0;
    while i < |numbers|
      invariant 0 <= i <= |numbers|
      invariant largest in numbers
      invariant forall k :: 0 <= k < i ==> numbers[k] <= largest
    {
      if numbers[i] > largest {
        largest := numbers[i];
      }
      i := i + 1;
    }
  }

  /** The array in `main` has 50 as its largest element: the only value `Largest` can return. */
  lemma NumbersLargest(m: I32)
    requires m in Numbers
    requires forall k :: 0 <= k < |Numbers| ==> Numbers[k] <= m
    ensures m == 50
  {
    assert Numbers[9] == 50;
  }

  /** The parities and labels `main` prints for its array, and two negative inputs. */
  lemma NumbersLabels()
    ensures !IsEven(3) && !IsEven(5) && IsEven(8) && IsEven(12) && !IsEven(15)
    ensures !IsEven(21) && !IsEven(25) && IsEven(30) && IsEven(42) && IsEven(50)
    ensures IsEven(-4) && !IsEven(-7)
    ensures FizzBuzz(15) == "FizzBuzz" && FizzBuzz(30) == "FizzBuzz"
    ensures FizzBuzz(3) == "Fizz" && FizzBuzz(12) == "Fizz" && FizzBuzz(21) == "Fizz" && FizzBuzz(42) == "Fizz"
    ensures FizzBuzz(5) == "Buzz" && FizzBuzz(25) == "Buzz" && FizzBuzz(50) == "Buzz"
    ensures FizzBuzz(8) == "" && FizzBuzz(-4) == "" && FizzBuzz(-7) == ""
  {
  }
}

=== FILE: cli.dfy ===
/**
 * The health checker's run configuration and its command-line parser
 * (`Config`, `Config::default` and `parse_args` in final_project/src/main.rs).
 * The arguments are given without the program name, as after `skip(1)`.
 */
module Cli {
  import opened Wrappers
  import opened Decimal

  datatype Config = Config(workers: nat, timeoutMs: nat, maxRetries: nat, json: bool)

  /** `Config::default()`. */
  const DefaultConfig := Config(16, 5000, 0, false)

  /** Every field fits the Rust type it is stored in. */
  predicate InRange(c: Config) {
    c.workers <= USIZE_MAX && c.timeoutMs <= U64_MAX && c.maxRetries <= U32_MAX
  }

  /** What one argument token means to the parser. */
  datatype Flag = WorkersFlag | TimeoutFlag | RetriesFlag | JsonFlag | Unrecognised

  function Classify(tok: string): Flag {
    if tok == "-w" || tok == "--workers" then WorkersFlag
    else if tok == "-t" || tok == "--timeout" then TimeoutFlag
    else if tok == "-r" || tok == "--retries" then RetriesFlag
    else if tok == "--json" then JsonFlag
    else Unrecognised
  }

  /** `args.get(i).and_then(|s| s.parse().ok())`. */
  function ValueAt(args: seq<string>, i: nat, max: nat): (r: Option<nat>)
    ensures r.Some? ==> i < |args| && ParseUnsigned(args[i], max) == r
    ensures i >= |args| ==> r.None?
  {
    if i < |args| then ParseUnsigned(args[i], max) else None
  }

  /** Where the scan goes after the token at `i`: past its value too, for a value-taking option. */
  function Next(args: seq<string>, i: nat): (j: nat)
    requires i < |args|
    ensures j == i + 1 || j == i + 2
  {
    if Classify(args[i]) in {WorkersFlag, TimeoutFlag, RetriesFlag} then i + 2 else i + 1
  }

  /** The scan started at position `i` inspects the token at position `k` (or ends there, at `|args|`). */
  predicate Scanned(args: seq<string>, i: nat, k: nat)
    decreases k - i
  {
    if i >= k then i == k else i < |args| && Scanned(args, Next(args, i), k)
  }

  /** The scan from `i` meets an option of kind `f` followed by a token that parses to `v`. */
  predicate SetByScannedOption(args: seq<string>, i: nat, f: Flag, max: nat, v: nat) {
    exists k: nat :: Scanned(args, i, k) && k < |args| - 1 && Classify(args[k]) == f && ParseUnsigned(args[k + 1], max) == Some(v)
  }

  /** The scan from `i` meets a `--json` token. */
  predicate JsonScanned(args: seq<string>, i: nat) {
    exists k: nat :: Scanned(args, i, k) && k < |args| && args[k] == "--json"
  }

  /** Every position the scan visits after the token at `i` is one the scan from `i` visits. */
  lemma ScannedAfterStep(args: seq<string>, i: nat)
    requires i < |args|
    ensures forall k: nat :: Scanned(args, Next(args, i), k) ==> Scanned(args, i, k)
  {
  }

  /**
   * One pass of the `while i < args.len()` body of `parse_args`: the token at
   * `i` is inspected, and the position after it (and after its value, for a
   * value-taking option) is returned with the updated configuration. A
   * value-taking option always consumes the following token, whether or not
   * it parses; its field changes only when it does. Fields the token does not
   * name are left alone.
   */
  function Step(args: seq<string>, i: nat, cfg: Config): (r: (nat, Config))
    requires i < |args|
    requires InRange(cfg)
    ensures InRange(r.1)
    ensures r.0 == Next(args, i)
    ensures Classify(args[i]) != WorkersFlag ==> r.1.workers == cfg.workers
    ensures Classify(args[i]) != TimeoutFlag ==> r.1.timeoutMs == cfg.timeoutMs
    ensures Classify(args[i]) != RetriesFlag ==> r.1.maxRetries == cfg.maxRetries
    ensures Classify(args[i]) != JsonFlag ==> r.1.json == cfg.json
    ensures Classify(args[i]) == JsonFlag ==> r.1.json
    ensures Classify(args[i]) == WorkersFlag ==> r.1.workers == ValueAt(args, i + 1, USIZE_MAX).GetOr(cfg.workers)
    ensures Classify(args[i]) == TimeoutFlag ==> r.1.timeoutMs == ValueAt(args, i + 1, U64_MAX).GetOr(cfg.timeoutMs)
    ensures Classify(args[i]) == RetriesFlag ==> r.1.maxRetries == ValueAt(args, i + 1, U32_MAX).GetOr(cfg.maxRetries)
  {
    match Classify(args[i])
    case WorkersFlag =>
      var v := ValueAt(args, i + 1, USIZE_MAX);
      (i + 2, if v.Some? then cfg.(workers := v.value) else cfg)
    case TimeoutFlag =>
      var v := ValueAt(args, i + 1, U64_MAX);
      (i + 2, if v.Some? then cfg.(timeoutMs := v.value) else cfg)
    case RetriesFlag =>
      var v := ValueAt(args, i + 1, U32_MAX);
      (i + 2, if v.Some? then cfg.(maxRetries := v.value) else cfg)
    case JsonFlag => (i + 1, cfg.(json := true))
    case Unrecognised => (i + 1, cfg)
  }

  /**
   * The `while i < args.len()` loop of `parse_args`, from position `i` with
   * the configuration built so far. A field that changes was set by a
   * matching option followed by a token that parses to the new value.
   */
  function ParseFrom(args: seq<string>, i: nat, cfg: Config): (r: Config)
    requires InRange(cfg)
    ensures InRange(r)
    ensures r.workers == cfg.workers || SetByScannedOption(args, i, WorkersFlag, USIZE_MAX, r.workers)
    ensures r.timeoutMs == cfg.timeoutMs || SetByScannedOption(args, i, TimeoutFlag, U64_MAX, r.timeoutMs)
    ensures r.maxRetries == cfg.maxRetries || SetByScannedOption(args, i, RetriesFlag, U32_MAX, r.maxRetries)
    ensures r.json ==> cfg.json || JsonScanned(args, i)
    ensures cfg.json ==> r.json
    decreases |args| - i
  {
    if i >= |args| then cfg
    else
      var next := Step(args, i, cfg);
      ScannedAfterStep(args, i);
      ParseFrom(args, next.0, next.1)
  }

  /**
   * `parse_args`: start from the defaults and scan every token. A field that
   * differs from its default was set by a matching option followed by a token
   * that parses to the new value; `json` is set only by a `--json` token.
   */
  function ParseArgs(args: seq<string>): (c: Config)
    ensures InRange(c)
    ensures c.workers == 16 || SetByScannedOption(args, 0, WorkersFlag, USIZE_MAX, c.workers)
    ensures c.timeoutMs == 5000 || SetByScannedOption(args, 0, TimeoutFlag, U64_MAX, c.timeoutMs)
    ensures c.maxRetries == 0 || SetByScannedOption(args, 0, RetriesFlag, U32_MAX, c.maxRetries)
    ensures c.json ==> JsonScanned(args, 0)
  {
    ParseFrom(args, 0, DefaultConfig)
  }

  /** A field is left alone by every token that does not name its option. */
  lemma {:induction false} UnnamedFieldsKeepValue(args: seq<string>, i: nat, cfg: Config)
    requires InRange(cfg)
    ensures (forall k :: i <= k < |args| ==> Classify(args[k]) != WorkersFlag) ==> ParseFrom(args, i, cfg).workers == cfg.workers
    ensures (forall k :: i <= k < |args| ==> Classify(args[k]) != TimeoutFlag) ==> ParseFrom(args, i, cfg).timeoutMs == cfg.timeoutMs
    ensures (forall k :: i <= k < |args| ==> Classify(args[k]) != RetriesFlag) ==> ParseFrom(args, i, cfg).maxRetries == cfg.maxRetries
    ensures (forall k :: i <= k < |args| ==> Classify(args[k]) != JsonFlag) ==> ParseFrom(args, i, cfg).json == cfg.json
    decreases |args| - i
  {
    if i < |args| {
      var next := Step(args, i, cfg);
      UnnamedFieldsKeepValue(args, next.0, next.1);
    }
  }

  /** The command line that spells out every field of `c` explicitly. */
  function Render(c: Config): seq<string> {
    ["-w", ToDecimal(c.workers), "-t", ToDecimal(c.timeoutMs), "-r", ToDecimal(c.maxRetries)]
    + (if c.json then ["--json"] else [])
  }

  /** Parsing a rendered configuration gives it back: every option is read. */
  lemma ParseRenderRoundTrip(c: Config)
    requires InRange(c)
    ensures ParseArgs(Render(c)) == c
  {
    var args := Render(c);
    var c2 := DefaultConfig.(workers := c.workers);
    var c4 := c2.(timeoutMs := c.timeoutMs);
    var c6 := c4.(maxRetries := c.maxRetries);
    ParseDecimalRoundTrip(c.workers, USIZE_MAX);
    ParseDecimalRoundTrip(c.timeoutMs, U64_MAX);
    ParseDecimalRoundTrip(c.maxRetries, U32_MAX);
    ReadsWorkers(args, 0, DefaultConfig, c.workers);
    ReadsTimeout(args, 2, c2, c.timeoutMs);
    ReadsRetries(args, 4, c4, c.maxRetries);
    assert ParseFrom(args, 6, c6) == c by {
      if c.json {
        assert Classify(args[6]) == JsonFlag;
        assert Step(args, 6, c6) == (7, c);
      }
    }
    assert ParseFrom(args, 4, c4) == ParseFrom(args, 6, c6);
    assert ParseFrom(args, 2, c2) == ParseFrom(args, 4, c4);
    assert ParseFrom(args, 0, DefaultConfig) == ParseFrom(args, 2, c2);
  }

  lemma ReadsWorkers(args: seq<string>, i: nat, cfg: Config, n: nat)
    requires InRange(cfg) && i + 1 < |args| && Classify(args[i]) == WorkersFlag
    requires ParseUnsigned(args[i + 1], USIZE_MAX) == Some(n)
    ensures Step(args, i, cfg) == (i + 2, cfg.(workers := n))
  {
  }

  lemma ReadsTimeout(args: seq<string>, i: nat, cfg: Config, n: nat)
    requires InRange(cfg) && i + 1 < |args| && Classify(args[i]) == TimeoutFlag
    requires ParseUnsigned(args[i + 1], U64_MAX) == Some(n)
    ensures Step(args, i, cfg) == (i + 2, cfg.(timeoutMs := n))
  {
  }

  lemma ReadsRetries(args: seq<string>, i: nat, cfg: Config, n: nat)
    requires InRange(cfg) && i + 1 < |args| && Classify(args[i]) == RetriesFlag
    requires ParseUnsigned(args[i + 1], U32_MAX) == Some(n)
    ensures Step(args, i, cfg) == (i + 2, cfg.(maxRetries := n))
  {
  }

  /** A scan up to `k` runs the same way on any arguments that agree with `pre` before `k`. */
  lemma {:induction false} ScannedAgrees(pre: seq<string>, args: seq<string>, i: nat, k: nat)
    requires Scanned(pre, i, k) && k <= |pre| && k <= |args|
    requires forall j :: 0 <= j < k ==> args[j] == pre[j]
    ensures Scanned(args, i, k)
    decreases k - i
  {
    if i < k {
      assert args[i] == pre[i];
      ScannedAgrees(pre, args, Next(pre, i), k);
    }
  }

  /** The configuration the scan started at `i` holds when it reaches position `k`. */
  function ConfigAt(args: seq<string>, i: nat, k: nat, cfg: Config): (c: Config)
    requires InRange(cfg) && Scanned(args, i, k)
    ensures InRange(c)
    decreases k - i
  {
    if i >= k then cfg else var next := Step(args, i, cfg); ConfigAt(args, next.0, k, next.1)
  }

  /** Once the scan reaches position `k`, parsing goes on from there with the configuration it holds. */
  lemma {:induction false} ScanReaches(args: seq<string>, i: nat, k: nat, cfg: Config)
    requires InRange(cfg) && Scanned(args, i, k) && k <= |args|
    ensures ParseFrom(args, i, cfg) == ParseFrom(args, k, ConfigAt(args, i, k, cfg))
    decreases k - i
  {
    if i < k {
      var next := Step(args, i, cfg);
      ScanReaches(args, next.0, k, next.1);
    }
  }

  /** Parsing arguments that start with `pre`, where the scan of `pre` ends exactly at its end, goes on after `pre` with the configuration `pre` leaves. */
  lemma ScanCrossesPrefix(pre: seq<string>, args: seq<string>)
    requires Scanned(pre, 0, |pre|) && |pre| <= |args|
    requires forall j :: 0 <= j < |pre| ==> args[j] == pre[j]
    ensures Scanned(args, 0, |pre|)
    ensures ParseArgs(args) == ParseFrom(args, |pre|, ConfigAt(args, 0, |pre|, DefaultConfig))
  {
    ScannedAgrees(pre, args, 0, |pre|);
    ScanReaches(args, 0, |pre|, DefaultConfig);
  }

  /** A workers option at `i` with a parseable value decides the field when no later token is one. */
  lemma WorkersSetAt(args: seq<string>, i: nat, c: Config, n: nat)
    requires InRange(c) && i + 1 < |args| && Classify(args[i]) == WorkersFlag
    requires ParseUnsigned(args[i + 1], USIZE_MAX) == Some(n)
    requires forall k :: i + 2 <= k < |args| ==> Classify(args[k]) != WorkersFlag
    ensures ParseFrom(args, i, c).workers == n
  {
    ReadsWorkers(args, i, c, n);
    UnnamedFieldsKeepValue(args, i + 2, c.(workers := n));
  }

  lemma TimeoutSetAt(args: seq<string>, i: nat, c: Config, n: nat)
    requires InRange(c) && i + 1 < |args| && Classify(args[i]) == TimeoutFlag
    requires ParseUnsigned(args[i + 1], U64_MAX) == Some(n)
    requires forall k :: i + 2 <= k < |args| ==> Classify(args[k]) != TimeoutFlag
    ensures ParseFrom(args, i, c).timeoutMs == n
  {
    ReadsTimeout(args, i, c, n);
    UnnamedFieldsKeepValue(args, i + 2, c.(timeoutMs := n));
  }

  lemma RetriesSetAt(args: seq<string>, i: nat, c: Config, n: nat)
    requires InRange(c) && i + 1 < |args| && Classify(args[i]) == RetriesFlag
    requires ParseUnsigned(args[i + 1], U32_MAX) == Some(n)
    requires forall k :: i + 2 <= k < |args| ==> Classify(args[k]) != RetriesFlag
    ensures ParseFrom(args, i, c).maxRetries == n
  {
    ReadsRetries(args, i, c, n);
    UnnamedFieldsKeepValue(args, i + 2, c.(maxRetries := n));
  }

  lemma JsonSetAt(args: seq<string>, i: nat, c: Config)
    requires InRange(c) && i < |args| && args[i] == "--json"
    ensures ParseFrom(args, i, c).json
  {
    assert Step(args, i, c).1.json;
  }

  /** A flag kind missing from `post` is missing from the tail of `front + post`. */
  lemma FlagAbsentAfter(front: seq<string>, post: seq<string>, f: Flag)
    requires forall k :: 0 <= k < |post| ==> Classify(post[k]) != f
    ensures forall k :: |front| <= k < |front + post| ==> Classify((front + post)[k]) != f
  {
    forall k | |front| <= k < |front + post|
      ensures Classify((front + post)[k]) != f
    {
      assert (front + post)[k] == post[k - |front|];
    }
  }

  /**
   * The converse of `ParseArgs`'s contract for `-w`/`--workers`: an option
   * the scan reaches, followed by a value that parses, sets the field,
   * unless a later workers option overrides it.
   */
  lemma WorkersOptionTakesEffect(pre: seq<string>, flag: string, v: string, post: seq<string>, n: nat)
    requires Scanned(pre, 0, |pre|)
    requires Classify(flag) == WorkersFlag && ParseUnsigned(v, USIZE_MAX) == Some(n)
    requires forall k :: 0 <= k < |post| ==> Classify(post[k]) != WorkersFlag
    ensures ParseArgs(pre + [flag, v] + post).workers == n
  {
    var args, i := pre + [flag, v] + post, |pre|;
    assert forall j :: 0 <= j < i ==> args[j] == pre[j];
    ScanCrossesPrefix(pre, args);
    assert args[i] == flag && args[i + 1] == v;
    FlagAbsentAfter(pre + [flag, v], post, WorkersFlag);
    WorkersSetAt(args, i, ConfigAt(args, 0, i, DefaultConfig), n);
  }

  /** The same for `-t`/`--timeout`. */
  lemma TimeoutOptionTakesEffect(pre: seq<string>, flag: string, v: string, post: seq<string>, n: nat)
    requires Scanned(pre, 0, |pre|)
    requires Classify(flag) == TimeoutFlag && ParseUnsigned(v, U64_MAX) == Some(n)
    requires forall k :: 0 <= k < |post| ==> Classify(post[k]) != TimeoutFlag
    ensures ParseArgs(pre + [flag, v] + post).timeoutMs == n
  {
    var args, i := pre + [flag, v] + post, |pre|;
    assert forall j :: 0 <= j < i ==> args[j] == pre[j];
    ScanCrossesPrefix(pre, args);
    assert args[i] == flag && args[i + 1] == v;
    FlagAbsentAfter(pre + [flag, v], post, TimeoutFlag);
    TimeoutSetAt(args, i, ConfigAt(args, 0, i, DefaultConfig), n);
  }

  /** The same for `-r`/`--retries`. */
  lemma RetriesOptionTakesEffect(pre: seq<string>, flag: string, v: string, post: seq<string>, n: nat)
    requires Scanned(pre, 0, |pre|)
    requires Classify(flag) == RetriesFlag && ParseUnsigned(v, U32_MAX) == Some(n)
    requires forall k :: 0 <= k < |post| ==> Classify(post[k]) != RetriesFlag
    ensures ParseArgs(pre + [flag, v] + post).maxRetries == n
  {
    var args, i := pre + [flag, v] + post, |pre|;
    assert forall j :: 0 <= j < i ==> args[j] == pre[j];
    ScanCrossesPrefix(pre, args);
    assert args[i] == flag && args[i + 1] == v;
    FlagAbsentAfter(pre + [flag, v], post, RetriesFlag);
    RetriesSetAt(args, i, ConfigAt(args, 0, i, DefaultConfig), n);
  }

  /** A `--json` the scan reaches turns JSON output on, whatever follows. */
  lemma JsonOptionTakesEffect(pre: seq<string>, post: seq<string>)
    requires Scanned(pre, 0, |pre|)
    ensures ParseArgs(pre + ["--json"] + post).json
  {
    var args, i := pre + ["--json"] + post, |pre|;
    assert forall j :: 0 <= j < i ==> args[j] == pre[j];
    ScanCrossesPrefix(pre, args);
    assert args[i] == "--json";
    JsonSetAt(args, i, ConfigAt(args, 0, i, DefaultConfig));
  }

  /** A value token is never read as an option: the `-w` here is the timeout's (unparseable) value. */
  lemma ValueTokenIsNotAnOption()
    ensures ParseArgs(["-t", "-w", "5"]).workers == 16
  {
    var args, d := ["-t", "-w", "5"], DefaultConfig;
    assert !AllDigits(args[1]) by { assert !IsDigit(args[1][0]); }
    assert Step(args, 0, d) == (2, d);
    assert Step(args, 2, d) == (3, d);
  }

  /** Leading zeros are accepted, as `str::parse` accepts them. */
  lemma LeadingZerosAccepted()
    ensures ParseArgs(["-w", "08"]).workers == 8
  {
    var args, d := ["-w", "08"], DefaultConfig;
    ParsePaddedRoundTrip("0", 8, USIZE_MAX);
    assert "0" + ToDecimal(8) == args[1];
    assert Step(args, 0, d) == (2, d.(workers := 8));
  }

  /** A value-taking option at the end keeps the previous value. */
  lemma MissingValueKeepsDefault()
    ensures ParseArgs(["-w"]) == DefaultConfig
  {
    assert Step(["-w"], 0, DefaultConfig) == (2, DefaultConfig);
  }

  /** An unparseable value is consumed and ignored; scanning goes on after it. */
  lemma BadValueIsSkipped()
    ensures ParseArgs(["-t", "soon", "--json"]) == DefaultConfig.(json := true)
  {
    var args, d := ["-t", "soon", "--json"], DefaultConfig;
    assert !AllDigits(args[1]) by { assert !IsDigit(args[1][0]); }
    assert Step(args, 0, d) == (2, d);
    assert Step(args, 2, d) == (3, d.(json := true));
  }

  /** The value token is consumed even when it is itself an option. */
  lemma ValueTokenIsConsumed()
    ensures ParseArgs(["--workers", "--json"]) == DefaultConfig
  {
    var args, d := ["--workers", "--json"], DefaultConfig;
    assert !AllDigits(args[1][1..]) && !AllDigits(args[1]) by { assert !IsDigit(args[1][1]); }
    assert Step(args, 0, d) == (2, d);
  }

  /** Unsigned fields reject a minus sign. */
  lemma NegativeValueRejected()
    ensures ParseArgs(["-w", "-4"]).workers == 16
  {
    var args, d := ["-w", "-4"], DefaultConfig;
    assert !AllDigits(args[1]) by { assert !IsDigit(args[1][0]); }
    assert Step(args, 0, d) == (2, d);
  }

  /** `max_retries` is a `u32`: any larger number does not parse and leaves the default. */
  lemma OverflowingValueRejected(n: nat)
    requires n > U32_MAX
    ensures ParseArgs(["-r", ToDecimal(n)]).maxRetries == 0
  {
    var args, d := ["-r", ToDecimal(n)], DefaultConfig;
    ParseDecimalRoundTrip(n, U32_MAX);
    assert Step(args, 0, d) == (2, d);
  }

  /** The last occurrence of an option wins; unknown tokens are skipped. */
  lemma LastOccurrenceWins()
    ensures ParseArgs(["-w", "3", "-x", "-w", "+8"]).workers == 8
  {
    var args, d := ["-w", "3", "-x", "-w", "+8"], DefaultConfig;
    ParseDecimalRoundTrip(3, USIZE_MAX);
    ParseDecimalRoundTrip(8, USIZE_MAX);
    assert ToDecimal(3) == args[1];
    assert "+" + ToDecimal(8) == args[4];
    var d3 := d.(workers := 3);
    assert Step(args, 0, d) == (2, d3);
    assert Step(args, 2, d3) == (3, d3);
    assert Step(args, 3, d3) == (5, d.(workers := 8));
    assert ParseFrom(args, 2, d3) == ParseFrom(args, 3, d3);
  }

  /** The option scan does not stop at the `--` that starts the target list. */
  lemma ScanRunsPastSeparator()
    ensures ParseArgs(["--", "--json"]).json
  {
    var args, d := ["--", "--json"], DefaultConfig;
    assert Step(args, 0, d) == (1, d);
    assert Step(args, 1, d) == (2, d.(json := true));
  }
}

=== FILE: decimal.dfy ===
/**
 * Rust's `str::parse` for the unsigned integer types used by the
 * configuration (`usize`, `u64`, `u32`): an optional leading `+`, then one
 * or more ASCII digits whose value does not exceed the type's maximum.
 * Anything else (the empty string, a lone `+`, a `-` sign, any other
 * character, an overflowing value) is an error.
 */
module Decimal {
  import opened Wrappers

  /** `usize` is taken to be 64 bits wide. */
  const USIZE_MAX: nat := 0xFFFF_FFFF_FFFF_FFFF
  const U64_MAX: nat := 0xFFFF_FFFF_FFFF_FFFF
  const U32_MAX: nat := 0xFFFF_FFFF

  predicate IsDigit(c: char) {
    '0' <= c <= '9'
  }

  predicate AllDigits(s: string) {
    forall k :: 0 <= k < |s| ==> IsDigit(s[k])
  }

  function DigitValue(c: char): (d: nat)
    requires IsDigit(c)
    ensures d < 10
  {
    (c as int) - ('0' as int)
  }

  function DigitChar(d: nat): (c: char)
    requires d < 10
    ensures IsDigit(c) && DigitValue(c) == d
  {
    ('0' as int + d) as char
  }

  /** The value of a string of decimal digits, most significant first. */
  function Value(s: string): nat
    requires AllDigits(s)
  {
    if |s| == 0 then 0 else 10 * Value(s[..|s| - 1]) + DigitValue(s[|s| - 1])
  }

  /** The shortest decimal rendering of `n` (what `to_string` prints). */
  function ToDecimal(n: nat): (s: string)
    ensures |s| > 0 && AllDigits(s)
  {
    if n < 10 then [DigitChar(n)] else ToDecimal(n / 10) + [DigitChar(n % 10)]
  }

  /** The digits of a number: `s` without one leading `+`. */
  function Unsigned(s: string): (d: string)
    ensures |d| <= |s|
  {
    if |s| > 0 && s[0] == '+' then s[1..] else s
  }

  /**
   * `s.parse::<T>().ok()` for an unsigned `T` whose largest value is `max`:
   * it succeeds exactly on one or more digits, after at most one `+`, whose
   * value fits, and gives that value. Leading zeros are allowed.
   */
  function ParseUnsigned(s: string, max: nat): (r: Option<nat>)
    ensures r.Some? ==> r.value <= max
    ensures r.Some? ==> |s| > 0 && forall k :: 0 <= k < |s| ==> IsDigit(s[k]) || (k == 0 && s[k] == '+')
    ensures r.Some? <==> |Unsigned(s)| > 0 && AllDigits(Unsigned(s)) && Value(Unsigned(s)) <= max
    ensures r.Some? ==> r.value == Value(Unsigned(s))
  {
    var digits := Unsigned(s);
    if |digits| == 0 || !AllDigits(digits) then None
    else if Value(digits) <= max then Some(Value(digits))
    else None
  }

  predicate AllZeros(z: string) {
    forall k :: 0 <= k < |z| ==> z[k] == '0'
  }

  /** Leading zeros do not change the value. */
  lemma {:induction false} ValueIgnoresLeadingZeros(z: string, s: string)
    requires AllZeros(z) && AllDigits(s)
    ensures AllDigits(z + s) && Value(z + s) == Value(s)
    decreases |s|
  {
    var t := z + s;
    assert AllDigits(t) by {
      forall k | 0 <= k < |t| ensures IsDigit(t[k]) {
        if k < |z| { assert t[k] == z[k]; } else { assert t[k] == s[k - |z|]; }
      }
    }
    if |s| == 0 {
      assert t == z;
      ValueOfZeros(z);
    } else {
      var s' := s[..|s| - 1];
      assert t[..|t| - 1] == z + s';
      assert t[|t| - 1] == s[|s| - 1];
      ValueIgnoresLeadingZeros(z, s');
    }
  }

  lemma {:induction false} ValueOfZeros(z: string)
    requires AllZeros(z)
    ensures AllDigits(z) && Value(z) == 0
  {
    if |z| > 0 {
      ValueOfZeros(z[..|z| - 1]);
    }
  }

  lemma {:induction false} ValueOfDecimal(n: nat)
    ensures Value(ToDecimal(n)) == n
  {
    if n >= 10 {
      var s := ToDecimal(n);
      assert s[..|s| - 1] == ToDecimal(n / 10);
      ValueOfDecimal(n / 10);
    }
  }

  /** Printing a value and parsing it back gives the value, with or without a `+`. */
  lemma ParseDecimalRoundTrip(n: nat, max: nat)
    ensures n <= max ==> ParseUnsigned(ToDecimal(n), max) == Some(n)
    ensures n <= max ==> ParseUnsigned("+" + ToDecimal(n), max) == Some(n)
    ensures n > max ==> ParseUnsigned(ToDecimal(n), max) == None
    ensures n > max ==> ParseUnsigned("+" + ToDecimal(n), max) == None
  {
    ValueOfDecimal(n);
    assert ("+" + ToDecimal(n))[1..] == ToDecimal(n);
  }

  /** A number padded with leading zeros parses to its value iff it fits. */
  lemma ParsePaddedRoundTrip(z: string, n: nat, max: nat)
    requires AllZeros(z)
    ensures ParseUnsigned(z + ToDecimal(n), max) == if n <= max then Some(n) else None
  {
    UnsignedOfPadded(z, n);
    ValueOfDecimal(n);
    ValueIgnoresLeadingZeros(z, ToDecimal(n));
  }

  /** The same with a leading `+`. */
  lemma ParsePaddedWithPlus(z: string, n: nat, max: nat)
    requires AllZeros(z)
    ensures ParseUnsigned("+" + z + ToDecimal(n), max) == if n <= max then Some(n) else None
  {
    var t := z + ToDecimal(n);
    assert Unsigned("+" + z + ToDecimal(n)) == t by {
      assert ("+" + z + ToDecimal(n))[1..] == t;
    }
    ValueOfDecimal(n);
    ValueIgnoresLeadingZeros(z, ToDecimal(n));
  }

  lemma UnsignedOfPadded(z: string, n: nat)
    requires AllZeros(z)
    ensures Unsigned(z + ToDecimal(n)) == z + ToDecimal(n)
  {
    var t := z + ToDecimal(n);
    if |z| > 0 { assert t[0] == z[0]; } else { assert t[0] == ToDecimal(n)[0]; }
  }
}

=== FILE: guessing.dfy ===
/**
 * The number-guessing program of module_1/assignment3/src/main.rs:
 * `check_guess` and the loop in `main` that guesses 26, 27, ... until it
 * hits the secret.
 */
module Guessing {
  import opened RustInt

  /** `check_guess`: 0 for a hit, 1 for too high, -1 for too low. */
  function CheckGuess(guess: I32, secret: I32): (r: int)
    ensures r == 0 <==> guess == secret
    ensures r == 1 <==> guess > secret
    ensures r == -1 <==> guess < secret
  {
    if guess == secret then 0
    else if guess > secret then 1
    else -1
  }

  /** Swapping the arguments negates the answer. */
  lemma CheckGuessAntisymmetric(a: I32, b: I32)
    ensures CheckGuess(a, b) == -CheckGuess(b, a)
  {
  }

  /**
   * The `loop` in `main`: guess `25 + attempts` after incrementing
   * `attempts`, until `check_guess` reports a hit. For a secret above 25 it
   * ends after `secret - 25` guesses, every one before the last reported too
   * low and none too high. (For a secret of 25 or less the loop would not end
   * before `i32` overflow.) With the program's secret, 42, that is 17 guesses.
   */
  method GuessingLoop(secret: I32) returns (attempts: nat, replies: seq<int>)
    requires secret > 25
    ensures attempts == secret - 25
    ensures |replies| == attempts
    ensures forall k :: 0 <= k < attempts - 1 ==> replies[k] == -1
    ensures replies[attempts - 1] == 0
  {
    attempts := 0;
    replies := [];
    var guess: I32;
    while true
      invariant 25 + attempts < secret
      invariant |replies| == attempts
      invariant forall k :: 0 <= k < attempts ==> replies[k] == -1
      decreases secret - 25 - attempts
    {
      attempts := attempts + 1;
      guess := 25 + attempts;
      var result := CheckGuess(guess, secret);
      replies := replies + [result];
      if result == 0 {
        break;
      } else if result == 1 {
        // "Too high!"
      } else {
        // "Too low!"
      }
    }
  }
}

=== FILE: pool.dfy ===
/**
 * The worker pool of `run_pool` and the flow of `main` in
 * final_project/src/main.rs, with the threads reduced to one sequential
 * drain of the shared queue. Since every claim is serialised by the queue's
 * mutex and each claimed target is probed independently, the drain produces
 * the same set of outcomes whichever worker claims a target.
 */
module Pool {
  import opened Wrappers
  import opened Cli
  import opened Targets
  import opened Probe

  /** The network seen by the whole run, indexed by target position, then attempt number. */
  type PoolNetwork = (nat, nat) -> Attempt

  /** `workers.max(1)`: how many threads `run_pool` spawns. */
  function SpawnedWorkers(workers: nat): (n: nat)
    ensures n >= 1 && n >= workers
    ensures workers >= 1 ==> n == workers
  {
    if workers >= 1 then workers else 1
  }

  /** A claim on the queue: `Vec::pop`, the last target, or nothing when it is empty. */
  function Claim(queue: seq<string>): (r: Option<(string, seq<string>)>)
    ensures r.None? <==> queue == []
    ensures r.Some? ==> queue == r.value.1 + [r.value.0]
  {
    if queue == [] then None else Some((queue[|queue| - 1], queue[..|queue| - 1]))
  }

  /** The targets the outcomes are about, in order. */
  function Urls(outcomes: seq<Outcome>): (r: seq<string>)
    ensures |r| == |outcomes|
  {
    if outcomes == [] then [] else Urls(outcomes[..|outcomes| - 1]) + [outcomes[|outcomes| - 1].url]
  }

  lemma UrlsAppend(outcomes: seq<Outcome>, o: Outcome)
    ensures Urls(outcomes + [o]) == Urls(outcomes) + [o.url]
  {
    assert (outcomes + [o])[..|outcomes|] == outcomes;
  }

  /** What the worker that claims the i-th target reports for it. */
  function ProbeTarget(url: string, i: nat, maxRetries: nat, net: PoolNetwork): Outcome
  {
    CheckWithRetries(url, (n: nat) => net(i, n), maxRetries).outcome
  }

  /**
   * One outcome per target, the k-th being the retry policy's result for
   * the k-th claim, which takes the target k places from the end of the list.
   */
  predicate InClaimOrder(results: seq<Outcome>, urls: seq<string>, maxRetries: nat, net: PoolNetwork) {
    |results| == |urls|
    && forall k :: 0 <= k < |results| ==>
      results[k] == ProbeTarget(urls[|urls| - 1 - k], |urls| - 1 - k, maxRetries, net)
  }

  /**
   * `run_pool` as a sequential drain: claim until the queue is empty, run the
   * retry policy on each claimed target and collect the outcome. Every
   * target gets exactly one outcome: the targets of the outcomes are the
   * input targets as a multiset, and the k-th outcome comes from the k-th
   * claim, which takes targets from the end of the list.
   */
  method RunPool(urls: seq<string>, workers: nat, maxRetries: nat, net: PoolNetwork)
    returns (results: seq<Outcome>, spawned: nat)
    ensures spawned >= 1 && (workers >= 1 ==> spawned == workers)
    ensures |results| == |urls|
    ensures multiset(Urls(results)) == multiset(urls)
    ensures InClaimOrder(results, urls, maxRetries, net)
  {
    spawned := SpawnedWorkers(workers);
    var queue := urls;
    results := [];
    while queue != []
      invariant |queue| <= |urls| && queue == urls[..|queue|]
      invariant |results| == |urls| - |queue|
      invariant multiset(Urls(results)) + multiset(queue) == multiset(urls)
      invariant forall k :: 0 <= k < |results| ==>
        results[k] == ProbeTarget(urls[|urls| - 1 - k], |urls| - 1 - k, maxRetries, net)
      decreases |queue|
    {
      var claim := Claim(queue);
      var url, rest := claim.value.0, claim.value.1;
      var outcome := ProbeTarget(url, |rest|, maxRetries, net);
      DrainStep(urls, queue, rest, url, results, outcome, maxRetries, net);
      results := results + [outcome];
      queue := rest;
    }
  }

  /** One claim of the drain keeps the loop's invariants. */
  lemma DrainStep(urls: seq<string>, queue: seq<string>, rest: seq<string>, url: string,
                  results: seq<Outcome>, outcome: Outcome, maxRetries: nat, net: PoolNetwork)
    requires queue == rest + [url] && |queue| <= |urls| && queue == urls[..|queue|]
    requires |results| == |urls| - |queue|
    requires multiset(Urls(results)) + multiset(queue) == multiset(urls)
    requires forall k :: 0 <= k < |results| ==>
      results[k] == ProbeTarget(urls[|urls| - 1 - k], |urls| - 1 - k, maxRetries, net)
    requires outcome == ProbeTarget(url, |rest|, maxRetries, net)
    ensures |rest| <= |urls| && rest == urls[..|rest|]
    ensures |results + [outcome]| == |urls| - |rest|
    ensures multiset(Urls(results + [outcome])) + multiset(rest) == multiset(urls)
    ensures forall k :: 0 <= k < |results + [outcome]| ==>
      (results + [outcome])[k] == ProbeTarget(urls[|urls| - 1 - k], |urls| - 1 - k, maxRetries, net)
  {
    ClaimedFromEnd(urls, queue, rest, url);
    UrlsAppend(results, outcome);
    ProbedInClaimOrder(urls, results, outcome, maxRetries, net);
  }

  /** The claimed target is the one at the new end of the queue. */
  lemma ClaimedFromEnd(urls: seq<string>, queue: seq<string>, rest: seq<string>, url: string)
    requires queue == rest + [url] && |queue| <= |urls| && queue == urls[..|queue|]
    ensures rest == urls[..|rest|] && url == urls[|rest|]
  {
  }

  /** Appending the outcome of the next claim keeps the outcomes in claim order. */
  lemma ProbedInClaimOrder(urls: seq<string>, results: seq<Outcome>, outcome: Outcome, maxRetries: nat, net: PoolNetwork)
    requires |results| < |urls|
    requires forall k :: 0 <= k < |results| ==>
      results[k] == ProbeTarget(urls[|urls| - 1 - k], |urls| - 1 - k, maxRetries, net)
    requires outcome == ProbeTarget(urls[|urls| - 1 - |results|], |urls| - 1 - |results|, maxRetries, net)
    ensures forall k :: 0 <= k < |results + [outcome]| ==>
      (results + [outcome])[k] == ProbeTarget(urls[|urls| - 1 - k], |urls| - 1 - k, maxRetries, net)
  {
  }

  /**
   * `main` without the printing: parse the options, collect the targets,
   * exit with 2 before any probing when there are none, otherwise run the
   * pool with the parsed settings and exit with 0, one outcome per target,
   * each probed with the parsed retry count.
   */
  method HealthCheck(args: seq<string>, stdinLines: seq<string>, net: PoolNetwork)
    returns (exitCode: int, results: seq<Outcome>)
    ensures exitCode == 2 <==> CollectTargets(args, stdinLines).Usage?
    ensures exitCode == 2 ==> results == []
    ensures exitCode != 2 ==> exitCode == 0
    ensures exitCode == 0 ==> |results| > 0 && multiset(Urls(results)) == multiset(CollectTargets(args, stdinLines).targets)
    ensures ArgTargets(args) != [] ==> exitCode == 0 && multiset(Urls(results)) == multiset(ArgTargets(args))
    ensures exitCode == 0 ==> InClaimOrder(results, CollectTargets(args, stdinLines).targets, ParseArgs(args).maxRetries, net)
  {
    var cfg := ParseArgs(args);
    match CollectTargets(args, stdinLines)
    case Usage(code) =>
      exitCode, results := code, [];
    case Run(urls) =>
      var spawned;
      results, spawned := RunPool(urls, cfg.workers, cfg.maxRetries, net);
      exitCode := 0;
  }
}

=== FILE: probe.dfy ===
/**
 * One probe of a target (`check_once`) and the retry policy around it
 * (`check_with_retries`) in final_project/src/main.rs.
 *
 * The HTTP client, the clocks and the sleep are outside the model: the
 * network is an oracle that says, for the n-th attempt (counting from 0),
 * what the client reported, how long the attempt took and when it finished.
 */
module Probe {
  import opened Wrappers

  /** The pause `check_with_retries` takes before every retry. */
  const RetryDelayMs: nat := 300

  /** The status sentinel for "no response received". */
  const NoStatus: int := -1

  /** An HTTP status as the client reports it: a `u16`. */
  type HttpStatus = x: int | 0 <= x < 0x1_0000

  /** What `agent.get(url).call()` gave: a response, or an error with its message. */
  datatype Reply = Responded(status: HttpStatus) | Failed(message: string)

  /** One attempt as the oracle reports it. */
  datatype Attempt = Attempt(reply: Reply, elapsedMs: nat, finishedAt: nat)

  /** The network: what the n-th attempt against a target gives. */
  type Network = nat -> Attempt

  /** `WebsiteStatus`; the timestamp is in seconds since the Unix epoch. */
  datatype Outcome = Outcome(url: string, statusCode: int, responseTimeMs: nat, timestamp: nat, error: Option<string>)

  /**
   * `check_once`: the status starts at the sentinel and is overwritten only
   * by a response, so the sentinel remains exactly when the call failed,
   * which is also exactly when an error text is recorded.
   */
  function CheckOnce(url: string, a: Attempt): (r: Outcome)
    ensures r.url == url
    ensures r.error.Some? <==> a.reply.Failed?
    ensures r.statusCode == NoStatus <==> r.error.Some?
    ensures a.reply.Failed? ==> r.error == Some(a.reply.message)
    ensures a.reply.Responded? ==> r.statusCode == a.reply.status
    ensures r.responseTimeMs == a.elapsedMs && r.timestamp == a.finishedAt
  {
    var status := match a.reply
      case Responded(code) => code
      case Failed(_) => NoStatus;
    var err := match a.reply
      case Responded(_) => None
      case Failed(msg) => Some(msg);
    Outcome(url, status, a.elapsedMs, a.finishedAt, err)
  }

  /**
   * The negation of the loop's `break` test: a network error, a 5xx status,
   * or a negative status calls for another attempt.
   */
  predicate ShouldRetry(o: Outcome) {
    !(o.error.None? && !(o.statusCode >= 500 || o.statusCode < 0))
  }

  /** Success in the sense of the policy: a 1xx–4xx response. */
  lemma ShouldRetryOnProbes(url: string, a: Attempt)
    ensures ShouldRetry(CheckOnce(url, a)) <==> a.reply.Failed? || a.reply.status >= 500
  {
  }

  /** The outcome of a retry loop and the number of probes it made. */
  datatype Retried = Retried(outcome: Outcome, attempts: nat)

  /**
   * The `while tries < max_retries` loop of `check_with_retries`, entered
   * with `tries` retries done and `last` the latest outcome.
   */
  function RetryLoop(url: string, net: Network, maxRetries: nat, tries: nat, last: Outcome): (r: Retried)
    requires tries <= maxRetries
    requires last == CheckOnce(url, net(tries))
    ensures tries + 1 <= r.attempts <= maxRetries + 1
    ensures r.outcome == CheckOnce(url, net(r.attempts - 1))
    ensures forall k :: tries <= k < r.attempts - 1 ==> ShouldRetry(CheckOnce(url, net(k)))
    ensures r.attempts <= maxRetries ==> !ShouldRetry(r.outcome)
    decreases maxRetries - tries
  {
    if tries < maxRetries && ShouldRetry(last) then
      RetryLoop(url, net, maxRetries, tries + 1, CheckOnce(url, net(tries + 1)))
    else
      Retried(last, tries + 1)
  }

  /**
   * `check_with_retries`: probe once, then again while the latest outcome
   * calls for a retry and fewer than `maxRetries` retries were made. The
   * result is the LAST outcome, never an earlier or better one; every
   * earlier attempt called for a retry; and stopping before the cap means
   * the last outcome did not.
   */
  function CheckWithRetries(url: string, net: Network, maxRetries: nat): (r: Retried)
    ensures 1 <= r.attempts <= maxRetries + 1
    ensures r.outcome == CheckOnce(url, net(r.attempts - 1))
    ensures forall k :: 0 <= k < r.attempts - 1 ==> ShouldRetry(CheckOnce(url, net(k)))
    ensures r.attempts <= maxRetries ==> !ShouldRetry(r.outcome)
  {
    RetryLoop(url, net, maxRetries, 0, CheckOnce(url, net(0)))
  }

  /** Total time spent sleeping between the attempts. */
  function SleptMs(r: Retried): nat
    requires r.attempts >= 1
  {
    RetryDelayMs * (r.attempts - 1)
  }

  /**
   * The attempt count is determined: it is the position of the first
   * outcome that needs no retry, plus one, capped at `maxRetries + 1`.
   */
  lemma {:induction false} AttemptsAreFirstSuccess(url: string, net: Network, maxRetries: nat, n: nat)
    requires 1 <= n <= maxRetries + 1
    requires forall k :: 0 <= k < n - 1 ==> ShouldRetry(CheckOnce(url, net(k)))
    requires n <= maxRetries ==> !ShouldRetry(CheckOnce(url, net(n - 1)))
    ensures CheckWithRetries(url, net, maxRetries).attempts == n
  {
    var r := CheckWithRetries(url, net, maxRetries);
    var last: nat, expected: nat := r.attempts - 1, n - 1;
    assert last < expected ==> ShouldRetry(CheckOnce(url, net(last)));
    assert expected < last ==> ShouldRetry(CheckOnce(url, net(expected)));
  }

  /** With no retries allowed, exactly one probe is made and its outcome is returned as is. */
  lemma NoRetriesMeansOneProbe(url: string, net: Network)
    ensures CheckWithRetries(url, net, 0) == Retried(CheckOnce(url, net(0)), 1)
    ensures SleptMs(CheckWithRetries(url, net, 0)) == 0
  {
  }

  /** A first response below 500 ends the loop at once, whatever the retry budget. */
  lemma FirstSuccessIsFinal(url: string, net: Network, maxRetries: nat)
    requires net(0).reply.Responded? && net(0).reply.status < 500
    ensures CheckWithRetries(url, net, maxRetries).attempts == 1
    ensures CheckWithRetries(url, net, maxRetries).outcome.statusCode == net(0).reply.status
  {
  }

  /**
   * When every attempt calls for a retry, all `maxRetries + 1` attempts are
   * made and the final one is reported, with its own elapsed time only.
   */
  lemma AllFailuresReportLast(url: string, net: Network, maxRetries: nat)
    requires forall k :: 0 <= k <= maxRetries ==> ShouldRetry(CheckOnce(url, net(k)))
    ensures CheckWithRetries(url, net, maxRetries).attempts == maxRetries + 1
    ensures CheckWithRetries(url, net, maxRetries).outcome == CheckOnce(url, net(maxRetries))
    ensures CheckWithRetries(url, net, maxRetries).outcome.responseTimeMs == net(maxRetries).elapsedMs
  {
  }

  /** An endpoint that always answers 503, with two retries allowed, is probed three times. */
  lemma Always503ThreeAttempts(url: string)
    ensures var net: Network := _ => Attempt(Responded(503), 10, 0);
      var r := CheckWithRetries(url, net, 2);
      r.attempts == 3 && r.outcome.statusCode == 503 && r.outcome.error == None
  {
    var net: Network := _ => Attempt(Responded(503), 10, 0);
    AllFailuresReportLast(url, net, 2);
  }

  /**
   * Retrying helps only while the budget lasts: a response on the third
   * attempt is reported when two retries are allowed, and with one retry
   * the second failure is reported instead.
   */
  lemma LastAttemptWins(url: string)
    ensures var net: Network := (k: nat) => if k < 2 then Attempt(Failed("timeout"), 200, k) else Attempt(Responded(200), 10, k);
      CheckWithRetries(url, net, 2) == Retried(Outcome(url, 200, 10, 2, None), 3)
      && CheckWithRetries(url, net, 1) == Retried(Outcome(url, NoStatus, 200, 1, Some("timeout")), 2)
  {
    var net: Network := (k: nat) => if k < 2 then Attempt(Failed("timeout"), 200, k) else Attempt(Responded(200), 10, k);
    AttemptsAreFirstSuccess(url, net, 2, 3);
    AllFailuresReportLast(url, net, 1);
  }
}

=== FILE: rust_int.dfy ===
/**
 * Rust's 32-bit signed integers and its remainder operator.
 *
 * Rust's `%` truncates toward zero (the remainder takes the sign of the
 * dividend), while Dafny's `%` is Euclidean (never negative). The two are
 * written out separately here so that the difference is explicit.
 */
module RustInt {

  const I32_MIN: int := -0x8000_0000
  const I32_MAX: int := 0x7FFF_FFFF

  type I32 = x: int | I32_MIN <= x <= I32_MAX

  /** Rust's `a % b` for a positive divisor: truncating division's remainder. */
  function Rem(a: int, b: int): (r: int)
    requires b > 0
    ensures -b < r < b
    ensures a >= 0 ==> r == a % b
    ensures a < 0 ==> r <= 0
  {
    if a >= 0 then a % b else -((-a) % b)
  }

  /** A multiple of `b` leaves Euclidean remainder 0. */
  lemma ModOfMultiple(k: int, b: int)
    requires b > 0
    ensures (k * b) % b == 0
  {
    var x := k * b;
    var q, r := x / b, x % b;
    assert x == b * q + r && 0 <= r < b;
    var t := k - q;
    assert r == b * t;
    assert t >= 1 ==> b * t >= b;
    assert t <= -1 ==> b * t <= -b;
  }

  /**
   * The truncating and the Euclidean remainder agree on whether `b` divides
   * `a`, negative `a` included.
   */
  lemma RemZeroIffDivides(a: int, b: int)
    requires b > 0
    ensures Rem(a, b) == 0 <==> a % b == 0
  {
    if a < 0 {
      var m := -a;
      var q, p := m / b, a / b;
      assert m == b * q + m % b;
      assert a == b * p + a % b;
      ModOfMultiple(-q, b);
      ModOfMultiple(-p, b);
      assert m % b == 0 ==> a == (-q) * b;
      assert a % b == 0 ==> m == (-p) * b;
    }
  }
}

=== FILE: targets.dfy ===
/**
 * How `main` in final_project/src/main.rs collects the targets: the tokens
 * after the first lone `--`, or else the standard-input lines that are
 * non-empty after trimming and do not start with `#`; with neither, the
 * program prints its usage text and exits with status 2 before any probing.
 * Standard input is given as the sequence of its lines.
 */
module Targets {
  import opened Wrappers
  import opened Text

  /** The exit status `main` uses when there is nothing to probe. */
  const UsageExitCode: int := 2

  datatype Launch = Run(targets: seq<string>) | Usage(exitCode: int)

  /** `args.iter().position(|s| s == "--")`, searching from `i`. */
  function SeparatorFrom(args: seq<string>, i: nat): (r: Option<nat>)
    requires i <= |args|
    ensures r.None? <==> forall k :: i <= k < |args| ==> args[k] != "--"
    ensures r.Some? ==> i <= r.value < |args| && args[r.value] == "--"
    ensures r.Some? ==> forall k :: i <= k < r.value ==> args[k] != "--"
    decreases |args| - i
  {
    if i == |args| then None
    else if args[i] == "--" then Some(i)
    else SeparatorFrom(args, i + 1)
  }

  /** The command-line targets: everything after the first `--`, or none. */
  function ArgTargets(args: seq<string>): (r: seq<string>)
    ensures "--" !in args ==> r == []
    ensures "--" in args ==> exists k :: 0 <= k < |args| && args[k] == "--" && "--" !in args[..k] && r == args[k + 1..]
  {
    match SeparatorFrom(args, 0)
    case None => []
    case Some(k) =>
      assert args[k] == "--";
      assert "--" !in args[..k] by {
        forall j | 0 <= j < k ensures args[..k][j] != "--" { }
      }
      args[k + 1..]
  }

  /** A standard-input line is kept when its trimmed form is not empty and is not a comment. */
  predicate KeepLine(line: string) {
    var t := Trim(line);
    t != [] && !StartsWith(t, '#')
  }

  /** The targets read from standard input, in input order. */
  function StdinTargets(lines: seq<string>): (r: seq<string>)
    ensures |r| <= |lines|
    ensures forall k :: 0 <= k < |r| ==> r[k] != [] && !StartsWith(r[k], '#') && Trim(r[k]) == r[k]
  {
    if |lines| == 0 then []
    else
      var rest := StdinTargets(lines[1..]);
      if KeepLine(lines[0]) then
        TrimIdempotent(lines[0]);
        [Trim(lines[0])] + rest
      else rest
  }

  /** A string is a standard-input target exactly when some kept line trims to it. */
  lemma {:induction false} StdinTargetsMembership(lines: seq<string>, t: string)
    ensures t in StdinTargets(lines) <==> exists k :: 0 <= k < |lines| && KeepLine(lines[k]) && Trim(lines[k]) == t
  {
    if |lines| > 0 {
      var tail := lines[1..];
      StdinTargetsMembership(tail, t);
      assert forall k :: 0 <= k < |tail| ==> tail[k] == lines[k + 1];
      assert (exists k :: 0 <= k < |lines| && KeepLine(lines[k]) && Trim(lines[k]) == t)
        <==> (KeepLine(lines[0]) && Trim(lines[0]) == t)
             || exists k :: 0 <= k < |tail| && KeepLine(tail[k]) && Trim(tail[k]) == t;
    }
  }

  /** Reading two blocks of lines gives the targets of the first, then those of the second. */
  lemma {:induction false} StdinTargetsAppend(a: seq<string>, b: seq<string>)
    ensures StdinTargets(a + b) == StdinTargets(a) + StdinTargets(b)
    decreases |a|
  {
    if |a| == 0 {
      assert a + b == b;
    } else {
      assert (a + b)[0] == a[0];
      assert (a + b)[1..] == a[1..] + b;
      StdinTargetsAppend(a[1..], b);
    }
  }

  /**
   * Each line contributes, in its place, its trimmed text when it is kept
   * and nothing otherwise; so order and repeats are those of the input.
   */
  lemma StdinTargetsLineByLine(pre: seq<string>, line: string, post: seq<string>)
    ensures StdinTargets(pre + [line] + post)
            == StdinTargets(pre) + (if KeepLine(line) then [Trim(line)] else []) + StdinTargets(post)
  {
    StdinTargetsAppend(pre + [line], post);
    StdinTargetsAppend(pre, [line]);
    assert StdinTargets([line][1..]) == [];
  }

  /**
   * The target list `main` hands to the pool, or the usage exit. Standard
   * input is consulted only when the command line supplies no targets.
   */
  function CollectTargets(args: seq<string>, stdinLines: seq<string>): (r: Launch)
    ensures r.Usage? <==> ArgTargets(args) == [] && StdinTargets(stdinLines) == []
    ensures r.Usage? ==> r.exitCode == 2
    ensures r.Run? ==> r.targets != []
    ensures ArgTargets(args) != [] ==> r == Run(ArgTargets(args))
    ensures ArgTargets(args) == [] ==> r.Run? ==> r.targets == StdinTargets(stdinLines)
  {
    var fromArgs := ArgTargets(args);
    var urls := if fromArgs == [] then StdinTargets(stdinLines) else fromArgs;
    if urls == [] then Usage(UsageExitCode) else Run(urls)
  }

  /** Comment and blank lines never become targets; with nothing else, `main` exits with 2. */
  lemma CommentAndBlankLinesDropped()
    ensures CollectTargets([], ["  # note", "\t"]) == Usage(2)
  {
    IndentedCommentDropped("  # note");
    BlankLineDropped("\t");
    NoLinesKept(["  # note", "\t"]);
    assert SeparatorFrom([], 0) == None;
  }

  lemma IndentedCommentDropped(line: string)
    requires line == "  # note"
    ensures !KeepLine(line)
  {
    assert line == "  " + line[2..] + "";
    TrimIsMiddle("  ", line[2..], "");
  }

  lemma BlankLineDropped(line: string)
    requires line == "\t"
    ensures !KeepLine(line)
  {
    assert line == "" + "" + "\t";
    TrimIsMiddle("", "", "\t");
  }

  lemma NoLinesKept(lines: seq<string>)
    requires |lines| == 2 && !KeepLine(lines[0]) && !KeepLine(lines[1])
    ensures StdinTargets(lines) == []
  {
    assert StdinTargets(lines) == StdinTargets(lines[1..]);
    assert StdinTargets(lines[1..]) == StdinTargets(lines[2..]);
  }

  /** A `--` with nothing after it falls back to standard input, whose lines are trimmed. */
  lemma EmptyTailReadsStdin()
    ensures CollectTargets(["-w", "4", "--"], [" https://a.example \r", "#x"]) == Run(["https://a.example"])
  {
    assert " https://a.example \r" == " " + "https://a.example" + " \r";
    PaddedLineTrimmed(" https://a.example \r", "https://a.example");
    CommentDropped("#x");
    FirstLineKept([" https://a.example \r", "#x"], "https://a.example");
    assert SeparatorFrom(["-w", "4", "--"], 0) == Some(2);
  }

  lemma PaddedLineTrimmed(line: string, t: string)
    requires t == "https://a.example" && line == " " + t + " \r"
    ensures KeepLine(line) && Trim(line) == t
  {
    TrimIsMiddle(" ", t, " \r");
  }

  lemma CommentDropped(line: string)
    requires line == "#x"
    ensures !KeepLine(line)
  {
    assert line == "" + line + "";
    TrimIsMiddle("", line, "");
  }

  lemma FirstLineKept(lines: seq<string>, t: string)
    requires |lines| == 2 && KeepLine(lines[0]) && Trim(lines[0]) == t && !KeepLine(lines[1])
    ensures StdinTargets(lines) == [t]
  {
    assert StdinTargets(lines[1..]) == StdinTargets(lines[2..]);
  }

  /** Targets after `--` are taken as they are, and standard input is then ignored. */
  lemma TailTargetsWin()
    ensures CollectTargets(["--", "b"], ["https://a.example"]) == Run(["b"])
  {
    assert SeparatorFrom(["--", "b"], 0) == Some(0);
  }
}

=== FILE: text.dfy ===
/**
 * The string helpers the programs take from Rust's standard library:
 * `char::is_whitespace`, `str::trim`, `str::split_whitespace` and
 * `str::starts_with`. Strings are sequences of Unicode scalar values.
 */
module Text {

  /** Unicode White_Space, the set `char::is_whitespace` accepts. */
  predicate IsWhitespace(c: char) {
    ('\t' <= c <= '\r') || c == ' ' || c == '\U{0085}' || c == '\U{00A0}'
    || c == '\U{1680}' || ('\U{2000}' <= c <= '\U{200A}') || c == '\U{2028}'
    || c == '\U{2029}' || c == '\U{202F}' || c == '\U{205F}' || c == '\U{3000}'
  }

  predicate AllWhitespace(s: string) {
    forall k :: 0 <= k < |s| ==> IsWhitespace(s[k])
  }

  /** A word in the sense of `split_whitespace`: non-empty, no whitespace in it. */
  predicate IsWord(w: string) {
    |w| > 0 && forall k :: 0 <= k < |w| ==> !IsWhitespace(w[k])
  }

  predicate StartsWith(s: string, c: char) {
    |s| > 0 && s[0] == c
  }

  /* ----- trim ----- */

  /** The first index at or after `i` that does not hold whitespace. */
  function SkipWhitespace(s: string, i: nat): (j: nat)
    requires i <= |s|
    ensures i <= j <= |s|
    ensures forall k :: i <= k < j ==> IsWhitespace(s[k])
    ensures j < |s| ==> !IsWhitespace(s[j])
    decreases |s| - i
  {
    if i < |s| && IsWhitespace(s[i]) then SkipWhitespace(s, i + 1) else i
  }

  /** The end of `s[lo..hi]` once trailing whitespace is removed. */
  function BackOverWhitespace(s: string, lo: nat, hi: nat): (j: nat)
    requires lo <= hi <= |s|
    ensures lo <= j <= hi
    ensures forall k :: j <= k < hi ==> IsWhitespace(s[k])
    ensures j > lo ==> !IsWhitespace(s[j - 1])
    decreases hi - lo
  {
    if hi > lo && IsWhitespace(s[hi - 1]) then BackOverWhitespace(s, lo, hi - 1) else hi
  }

  /**
   * `str::trim`: `s` with leading and trailing whitespace removed. The
   * result is the slice `s[i..j]` where everything outside it is whitespace
   * and its own first and last characters are not.
   */
  function Trim(s: string): (r: string)
    ensures |r| <= |s|
    ensures r == [] || (!IsWhitespace(r[0]) && !IsWhitespace(r[|r| - 1]))
    ensures r == [] <==> AllWhitespace(s)
  {
    var i := SkipWhitespace(s, 0);
    var j := BackOverWhitespace(s, i, |s|);
    s[i..j]
  }

  /** Trimming keeps exactly the text between the whitespace margins. */
  lemma TrimIsMiddle(pre: string, mid: string, post: string)
    requires AllWhitespace(pre) && AllWhitespace(post)
    requires mid == [] || (!IsWhitespace(mid[0]) && !IsWhitespace(mid[|mid| - 1]))
    ensures Trim(pre + mid + post) == mid
  {
    var s := pre + mid + post;
    var i := SkipWhitespace(s, 0);
    var j := BackOverWhitespace(s, i, |s|);
    if mid == [] {
      assert AllWhitespace(s) by {
        forall k | 0 <= k < |s| ensures IsWhitespace(s[k]) {
          if k < |pre| { assert s[k] == pre[k]; } else { assert s[k] == post[k - |pre|]; }
        }
      }
    } else {
      assert s[|pre|] == mid[0];
      assert forall k :: 0 <= k < |pre| ==> s[k] == pre[k];
      assert i == |pre|;
      assert s[|pre| + |mid| - 1] == mid[|mid| - 1];
      assert forall k :: |pre| + |mid| <= k < |s| ==> s[k] == post[k - |pre| - |mid|];
      assert j == |pre| + |mid|;
      assert s[i..j] == mid;
    }
  }

  /** Trimming is idempotent. */
  lemma TrimIdempotent(s: string)
    ensures Trim(Trim(s)) == Trim(s)
  {
    var t := Trim(s);
    assert t == [] + t + [];
    TrimIsMiddle([], t, []);
  }

  /* ----- split_whitespace ----- */

  /** The end of the run of non-whitespace characters starting at `i`. */
  function WordEnd(s: string, i: nat): (j: nat)
    requires i <= |s|
    ensures i <= j <= |s|
    ensures forall k :: i <= k < j ==> !IsWhitespace(s[k])
    ensures j < |s| ==> IsWhitespace(s[j])
    decreases |s| - i
  {
    if i < |s| && !IsWhitespace(s[i]) then WordEnd(s, i + 1) else i
  }

  /** `str::split_whitespace`: the maximal whitespace-free runs of `s`, in order. */
  function SplitWhitespace(s: string): (ws: seq<string>)
    ensures forall k :: 0 <= k < |ws| ==> IsWord(ws[k])
    ensures ws == [] <==> AllWhitespace(s)
    decreases |s|
  {
    if |s| == 0 then []
    else if IsWhitespace(s[0]) then
      var rest := SplitWhitespace(s[1..]);
      assert AllWhitespace(s[1..]) ==> AllWhitespace(s) by {
        if AllWhitespace(s[1..]) {
          forall k | 0 <= k < |s| ensures IsWhitespace(s[k]) {
            if k > 0 { assert s[k] == s[1..][k - 1]; }
          }
        }
      }
      rest
    else
      var n := WordEnd(s, 0);
      [s[..n]] + SplitWhitespace(s[n..])
  }

  /** The words joined by single spaces, the inverse of `SplitWhitespace`. */
  function JoinWords(ws: seq<string>): string
  {
    if |ws| == 0 then ""
    else if |ws| == 1 then ws[0]
    else ws[0] + " " + JoinWords(ws[1..])
  }

  lemma ConcatAssoc<T>(a: seq<T>, b: seq<T>, c: seq<T>)
    ensures a + b + c == a + (b + c)
  {
  }

  lemma AppendEmpty<T>(a: seq<T>)
    ensures a + [] == a
  {
  }

  /** Leading whitespace does not change the words. */
  lemma {:induction false} SplitLeadingWhitespace(pre: string, s: string)
    requires AllWhitespace(pre)
    ensures SplitWhitespace(pre + s) == SplitWhitespace(s)
    decreases |pre|
  {
    if |pre| == 0 {
      assert pre + s == s;
    } else {
      var t := pre + s;
      assert t[0] == pre[0];
      assert t[1..] == pre[1..] + s;
      SplitLeadingWhitespace(pre[1..], s);
    }
  }

  /** A word followed by whitespace, or by nothing, is the first word. */
  lemma SplitWordFirst(w: string, s: string)
    requires IsWord(w)
    requires s == [] || IsWhitespace(s[0])
    ensures SplitWhitespace(w + s) == [w] + SplitWhitespace(s)
  {
    var t := w + s;
    assert t[0] == w[0];
    assert forall k :: 0 <= k < |w| ==> t[k] == w[k];
    assert |w| < |t| ==> t[|w|] == s[0];
    var n := WordEnd(t, 0);
    assert n == |w|;
    assert t[..n] == w;
    assert t[n..] == s;
  }

  /** The words joined by the given separators, one between each pair. */
  function JoinWith(ws: seq<string>, seps: seq<string>): string
    requires |ws| == 0 || |seps| == |ws| - 1
    decreases |ws|
  {
    if |ws| == 0 then ""
    else if |ws| == 1 then ws[0]
    else ws[0] + seps[0] + JoinWith(ws[1..], seps[1..])
  }

  /** Each separator is a non-empty run of whitespace. */
  predicate Separators(seps: seq<string>) {
    forall k :: 0 <= k < |seps| ==> |seps[k]| > 0 && AllWhitespace(seps[k])
  }

  lemma {:induction false} SplitJoinedWith(ws: seq<string>, seps: seq<string>, post: string)
    requires forall k :: 0 <= k < |ws| ==> IsWord(ws[k])
    requires |ws| == 0 || |seps| == |ws| - 1
    requires Separators(seps) && AllWhitespace(post)
    ensures SplitWhitespace(JoinWith(ws, seps) + post) == ws
    decreases |ws|
  {
    if |ws| == 0 {
      assert JoinWith(ws, seps) + post == post;
    } else if |ws| == 1 {
      assert JoinWith(ws, seps) + post == ws[0] + post;
      SplitWordFirst(ws[0], post);
    } else {
      var sep, rest := seps[0], JoinWith(ws[1..], seps[1..]) + post;
      assert JoinWith(ws, seps) + post == ws[0] + (sep + rest);
      assert (sep + rest)[0] == sep[0];
      SplitWordFirst(ws[0], sep + rest);
      SplitLeadingWhitespace(sep, rest);
      SplitJoinedWith(ws[1..], seps[1..], post);
      assert ws == [ws[0]] + ws[1..];
    }
  }

  /**
   * The general round trip: words separated by any non-empty runs of
   * whitespace, with any whitespace before and after, split back into
   * exactly those words.
   */
  lemma SplitPaddedRoundTrip(pre: string, ws: seq<string>, seps: seq<string>, post: string)
    requires forall k :: 0 <= k < |ws| ==> IsWord(ws[k])
    requires |ws| == 0 || |seps| == |ws| - 1
    requires Separators(seps) && AllWhitespace(pre) && AllWhitespace(post)
    ensures SplitWhitespace(pre + JoinWith(ws, seps) + post) == ws
  {
    var mid := JoinWith(ws, seps);
    SplitJoinedWith(ws, seps, post);
    ConcatAssoc(pre, mid, post);
    SplitLeadingWhitespace(pre, mid + post);
  }

  /** `JoinWords` is `JoinWith` with a single space between each pair of words. */
  lemma {:induction false} JoinWordsIsJoinWith(ws: seq<string>)
    requires |ws| > 0
    ensures JoinWords(ws) == JoinWith(ws, seq(|ws| - 1, _ => " "))
    decreases |ws|
  {
    if |ws| > 1 {
      JoinWordsIsJoinWith(ws[1..]);
      assert seq(|ws| - 1, _ => " ")[1..] == seq(|ws| - 2, _ => " ");
    }
  }

  /** Splitting the space-joined words gives the words back. */
  lemma SplitJoinRoundTrip(ws: seq<string>)
    requires forall k :: 0 <= k < |ws| ==> IsWord(ws[k])
    ensures SplitWhitespace(JoinWords(ws)) == ws
  {
    if |ws| > 0 {
      var seps := seq(|ws| - 1, _ => " ");
      JoinWordsIsJoinWith(ws);
      SplitJoinedWith(ws, seps, "");
      AppendEmpty(JoinWith(ws, seps));
    }
  }
}

=== FILE: word_freq.dfy ===
/**
 * `most_frequent_word` in module_2/assignment2/src/main.rs: split the text
 * on whitespace, count each distinct word in two parallel vectors, and keep
 * the word whose count first climbs above the running maximum.
 */
module WordFreq {
  import opened Text

  /** How often `w` occurs in `ws`. */
  function Occurrences(ws: seq<string>, w: string): nat {
    multiset(ws)[w]
  }

  /**
   * The running leader of a word scan, processed word by word: the leader
   * changes only when the word just seen has a count strictly above the
   * leader's, so on a tie the earlier leader stays.
   */
  function Leader(ws: seq<string>): (string, nat)
  {
    if |ws| == 0 then ("", 0)
    else
      var prev := Leader(ws[..|ws| - 1]);
      var w := ws[|ws| - 1];
      var c := Occurrences(ws, w);
      if c > prev.1 then (w, c) else prev
  }

  /**
   * The word `w` reached `c` occurrences at position `j`, and at that moment
   * no word had reached `c` yet.
   */
  ghost predicate FirstReachedAt(ws: seq<string>, j: nat, w: string, c: nat)
    requires j < |ws|
  {
    ws[j] == w && Occurrences(ws[..j + 1], w) == c
    && forall v :: Occurrences(ws[..j], v) < c
  }

  /**
   * The leader's count is the largest number of occurrences of any word, and
   * for a non-empty scan the leader occurs exactly that often.
   */
  lemma {:induction false} LeaderIsMostFrequent(ws: seq<string>)
    ensures forall v :: Occurrences(ws, v) <= Leader(ws).1
    ensures |ws| == 0 ==> Leader(ws) == ("", 0)
    ensures |ws| > 0 ==> Leader(ws).1 > 0 && Occurrences(ws, Leader(ws).0) == Leader(ws).1
  {
    if |ws| > 0 {
      var p := ws[..|ws| - 1];
      var w := ws[|ws| - 1];
      assert ws == p + [w];
      LeaderIsMostFrequent(p);
      assert forall v :: Occurrences(ws, v) == Occurrences(p, v) + (if v == w then 1 else 0);
    }
  }

  /**
   * Tie-break: the leader is the word whose count reached the maximum first
   * in scan order; every other word with the same count got there later.
   */
  lemma {:induction false} LeaderReachedFirst(ws: seq<string>)
    requires |ws| > 0
    ensures exists j :: 0 <= j < |ws| && FirstReachedAt(ws, j, Leader(ws).0, Leader(ws).1)
  {
    var p := ws[..|ws| - 1];
    var w := ws[|ws| - 1];
    assert ws == p + [w];
    assert ws[..|ws| - 1] == p;
    var prev := Leader(p);
    LeaderIsMostFrequent(p);
    if Occurrences(ws, w) > prev.1 {
      var last: nat := |ws| - 1;
      assert ws[..last + 1] == ws && ws[..last] == p;
      assert Leader(ws) == (w, Occurrences(ws, w));
      assert FirstReachedAt(ws, last, w, Occurrences(ws, w));
    } else {
      LeaderReachedFirst(p);
      var j :| 0 <= j < |p| && FirstReachedAt(p, j, prev.0, prev.1);
      assert ws[..j + 1] == p[..j + 1] && ws[..j] == p[..j];
      assert Leader(ws) == prev;
      assert FirstReachedAt(ws, j, prev.0, prev.1);
    }
  }

  /**
   * The bookkeeping of the scan after the words `seen`: `uniqueWords` holds
   * each of them once, and `counts[k]` is how often `uniqueWords[k]` occurs.
   */
  ghost predicate Tally(seen: seq<string>, uniqueWords: seq<string>, counts: seq<nat>) {
    |uniqueWords| == |counts|
    && (forall a, b :: 0 <= a < b < |uniqueWords| ==> uniqueWords[a] != uniqueWords[b])
    && (forall k :: 0 <= k < |uniqueWords| ==> counts[k] == Occurrences(seen, uniqueWords[k]))
    && (forall v :: v in seen ==> v in uniqueWords)
  }

  /** A word seen before: its count goes up by one. */
  lemma TallySeen(seen: seq<string>, uniqueWords: seq<string>, counts: seq<nat>, j: nat)
    requires Tally(seen, uniqueWords, counts) && j < |uniqueWords|
    ensures Tally(seen + [uniqueWords[j]], uniqueWords, counts[j := counts[j] + 1])
    ensures counts[j] + 1 == Occurrences(seen + [uniqueWords[j]], uniqueWords[j])
  {
    var word := uniqueWords[j];
    assert forall v :: Occurrences(seen + [word], v) == Occurrences(seen, v) + (if v == word then 1 else 0);
  }

  /** A new word: it is appended with count one. */
  lemma TallyNew(seen: seq<string>, uniqueWords: seq<string>, counts: seq<nat>, word: string)
    requires Tally(seen, uniqueWords, counts) && word !in uniqueWords
    ensures Tally(seen + [word], uniqueWords + [word], counts + [1])
    ensures Occurrences(seen + [word], word) == 1
  {
    assert word !in seen;
    assert forall v :: Occurrences(seen + [word], v) == Occurrences(seen, v) + (if v == word then 1 else 0);
  }

  /** No count kept by the scan exceeds the leader's count. */
  lemma CountsBelowLeader(seen: seq<string>, uniqueWords: seq<string>, counts: seq<nat>)
    requires Tally(seen, uniqueWords, counts)
    ensures forall k :: 0 <= k < |counts| ==> counts[k] <= Leader(seen).1
  {
    LeaderIsMostFrequent(seen);
  }

  /** One more word: the leader changes only on a strictly higher count. */
  lemma LeaderSnoc(seen: seq<string>, word: string)
    ensures var c := Occurrences(seen + [word], word);
            Leader(seen + [word]) == if c > Leader(seen).1 then (word, c) else Leader(seen)
  {
    assert (seen + [word])[..|seen|] == seen;
  }

  /**
   * The inner loop of `most_frequent_word`: the position of the first entry
   * of `uniqueWords` equal to `word`, if there is one.
   */
  method FindWord(uniqueWords: seq<string>, word: string) returns (found: bool, j: nat)
    ensures found ==> j < |uniqueWords| && uniqueWords[j] == word
    ensures found ==> forall k :: 0 <= k < j ==> uniqueWords[k] != word
    ensures !found <==> word !in uniqueWords
  {
    found, j := false, 0;
    while j < |uniqueWords|
      invariant 0 <= j <= |uniqueWords|
      invariant forall k :: 0 <= k < j ==> uniqueWords[k] != word
    {
      if uniqueWords[j] == word {
        found := true;
        return;
      }
      j := j + 1;
    }
  }

  /**
   * `most_frequent_word`, with the loops of the source: `uniqueWords[k]`
   * has been seen `counts[k]` times so far, and `(maxWord, maxCount)` is the
   * running leader. The result is the most frequent word and its count,
   * ties going to the word that reached that count first, and `("", 0)`
   * when the text has no words.
   */
  method MostFrequentWord(text: string) returns (maxWord: string, maxCount: nat)
    ensures (maxWord, maxCount) == Leader(SplitWhitespace(text))
    ensures AllWhitespace(text) ==> maxWord == "" && maxCount == 0
    ensures forall v :: Occurrences(SplitWhitespace(text), v) <= maxCount
    ensures !AllWhitespace(text) ==> maxCount > 0 && Occurrences(SplitWhitespace(text), maxWord) == maxCount
    ensures !AllWhitespace(text) ==> exists j :: 0 <= j < |SplitWhitespace(text)| && FirstReachedAt(SplitWhitespace(text), j, maxWord, maxCount)
  {
    var words := SplitWhitespace(text);
    var uniqueWords: seq<string> := [];
    var counts: seq<nat> := [];
    maxWord, maxCount := "", 0;
    var i := 0;
    while i < |words|
      invariant 0 <= i <= |words|
      invariant Tally(words[..i], uniqueWords, counts)
      invariant (maxWord, maxCount) == Leader(words[..i])
      invariant forall k :: 0 <= k < |counts| ==> counts[k] <= maxCount
    {
      var word := words[i];
      assert words[..i + 1] == words[..i] + [word];
      LeaderSnoc(words[..i], word);
      var found, j := FindWord(uniqueWords, word);
      if found {
        TallySeen(words[..i], uniqueWords, counts, j);
        counts := counts[j := counts[j] + 1];
        if counts[j] > maxCount {
          maxCount := counts[j];
          maxWord := uniqueWords[j];
        }
      }
      if !found {
        TallyNew(words[..i], uniqueWords, counts, word);
        uniqueWords := uniqueWords + [word];
        counts := counts + [1];
        if maxCount == 0 {
          maxCount := 1;
          maxWord := word;
        }
      }
      CountsBelowLeader(words[..i + 1], uniqueWords, counts);
      i := i + 1;
    }
    assert words[..i] == words;
    LeaderOfText(text);
  }

  /** What the leader of a text's words is, gathered for `MostFrequentWord`. */
  lemma LeaderOfText(text: string)
    ensures var ws := SplitWhitespace(text);
            var (w, c) := Leader(ws);
            (AllWhitespace(text) ==> w == "" && c == 0)
            && (forall v :: Occurrences(ws, v) <= c)
            && (!AllWhitespace(text) ==> c > 0 && Occurrences(ws, w) == c)
            && (!AllWhitespace(text) ==> exists j :: 0 <= j < |ws| && FirstReachedAt(ws, j, w, c))
  {
    var ws := SplitWhitespace(text);
    LeaderIsMostFrequent(ws);
    if ws != [] {
      LeaderReachedFirst(ws);
    }
  }

  /** The sentence in `main`. */
  const SampleText := "the quick brown fox jumps over the lazy dog the quick brown fox"

  const SampleWords := ["the", "quick", "brown", "fox", "jumps", "over", "the", "lazy", "dog", "the", "quick", "brown", "fox"]

  /** One more word in front of a space-joined list. */
  lemma JoinWordsCons(ws: seq<string>, k: nat)
    requires k + 1 < |ws|
    ensures JoinWords(ws[k..]) == ws[k] + " " + JoinWords(ws[k + 1..])
  {
    assert ws[k..][1..] == ws[k + 1..];
  }

  lemma SampleSplit()
    ensures SplitWhitespace(SampleText) == SampleWords
  {
    SampleJoin(SampleWords);
    SampleAreWords(SampleWords);
    SplitJoinRoundTrip(SampleWords);
  }

  /** Joining two non-empty lists is joining each and putting a space between. */
  lemma {:induction false} JoinWordsAppend(a: seq<string>, b: seq<string>)
    requires |a| > 0 && |b| > 0
    ensures JoinWords(a + b) == JoinWords(a) + " " + JoinWords(b)
    decreases |a|
  {
    if |a| == 1 {
      assert (a + b)[1..] == b;
    } else {
      assert (a + b)[1..] == a[1..] + b;
      JoinWordsAppend(a[1..], b);
    }
  }

  lemma SampleJoin(ws: seq<string>)
    requires ws == SampleWords
    ensures JoinWords(ws) == SampleText
  {
    var a, b, c := ["the", "quick", "brown", "fox"], ["jumps", "over", "the", "lazy"], ["the", "quick", "brown", "fox"];
    SampleChunks(ws, a, b, c);
    JoinFour(a, "the", "quick", "brown", "fox");
    JoinFour(b, "jumps", "over", "the", "lazy");
    JoinWordsAppend(["dog"], c);
    JoinWordsAppend(a, b);
    JoinWordsAppend(a + b, ["dog"] + c);
    SampleTextChunks(JoinWords(a), JoinWords(b), JoinWords(["dog"] + c));
  }

  lemma SampleChunks(ws: seq<string>, a: seq<string>, b: seq<string>, c: seq<string>)
    requires ws == SampleWords
    requires a == ["the", "quick", "brown", "fox"] && b == ["jumps", "over", "the", "lazy"] && c == a
    ensures ws == a + b + (["dog"] + c)
  {
  }

  /**
   * The sentence glued back from its three chunks. String literals are
   * compared character by character, and the solver checks a concatenation
   * of many of them only in small steps, so each step is a lemma of its own
   * (`FirstFour` to `WholeText`); they say nothing beyond this one.
   */
  lemma SampleTextChunks(x: string, y: string, z: string)
    requires x == "the" + " " + "quick" + " " + "brown" + " " + "fox"
    requires y == "jumps" + " " + "over" + " " + "the" + " " + "lazy"
    requires z == "dog" + " " + x
    ensures x + " " + y + " " + z == SampleText
  {
    FirstFour();
    SecondFour();
    LastFive();
    FirstEight();
    WholeText();
  }

  lemma FirstFour()
    ensures "the" + " " + "quick" + " " + "brown" + " " + "fox" == "the quick brown fox"
  {
  }

  lemma SecondFour()
    ensures "jumps" + " " + "over" + " " + "the" + " " + "lazy" == "jumps over the lazy"
  {
  }

  lemma LastFive()
    ensures "dog" + " " + "the quick brown fox" == "dog the quick brown fox"
  {
  }

  lemma FirstEight()
    ensures "the quick brown fox" + " " + "jumps over the lazy" == "the quick brown fox jumps over the lazy"
  {
  }

  lemma WholeText()
    ensures "the quick brown fox jumps over the lazy" + " " + "dog the quick brown fox" == SampleText
  {
  }

  lemma JoinFour(ws: seq<string>, w0: string, w1: string, w2: string, w3: string)
    requires ws == [w0, w1, w2, w3]
    ensures JoinWords(ws) == w0 + " " + w1 + " " + w2 + " " + w3
  {
    assert ws[3..] == [w3];
    JoinWordsCons(ws, 2);
    JoinWordsCons(ws, 1);
    JoinWordsCons(ws, 0);
    assert ws[0..] == ws;
  }

  lemma SampleAreWords(ws: seq<string>)
    requires ws == SampleWords
    ensures forall k :: 0 <= k < |ws| ==> IsWord(ws[k])
  {
  }

  /** The sentence in `main` has "the" as its most frequent word, three times. */
  lemma SampleMostFrequent()
    ensures Leader(SplitWhitespace(SampleText)) == ("the", 3)
  {
    SampleSplit();
    var a, b := ["the", "quick", "brown", "fox"], ["jumps", "over", "the", "lazy"];
    SampleChunks(SampleWords, a, b, a);
    SampleLeader(SampleWords, a, b);
  }

  lemma SampleLeader(ws: seq<string>, a: seq<string>, b: seq<string>)
    requires a == ["the", "quick", "brown", "fox"] && b == ["jumps", "over", "the", "lazy"]
    requires ws == a + b + (["dog"] + a)
    ensures Leader(ws) == ("the", 3)
  {
    ChunksDistinct(a, b);
    SampleOccurrences(ws, a, b, "the");
    AtMostOnce(a, "the");
    AtMostOnce(b, "the");
    OnlyCommonWord(a, b, "the");
    forall v | v != "the"
      ensures Occurrences(ws, v) < 3
    {
      SampleOccurrences(ws, a, b, v);
      AtMostOnce(a, v);
      AtMostOnce(b, v);
      OnlyCommonWord(a, b, v);
    }
    UniqueMaximumLeads(ws, "the", 3);
  }

  /** A word that occurs more often than every other word is the leader. */
  lemma UniqueMaximumLeads(ws: seq<string>, w: string, c: nat)
    requires c > 0 && Occurrences(ws, w) == c
    requires forall v :: v != w ==> Occurrences(ws, v) < c
    ensures Leader(ws) == (w, c)
  {
    LeaderIsMostFrequent(ws);
  }

  /** Neither half of the sample repeats a word. */
  lemma ChunksDistinct(a: seq<string>, b: seq<string>)
    requires a == ["the", "quick", "brown", "fox"] && b == ["jumps", "over", "the", "lazy"]
    ensures forall i, j :: 0 <= i < j < |a| ==> a[i] != a[j]
    ensures forall i, j :: 0 <= i < j < |b| ==> b[i] != b[j]
  {
  }

  /** Occurrences in the sample, chunk by chunk. */
  lemma SampleOccurrences(ws: seq<string>, a: seq<string>, b: seq<string>, w: string)
    requires ws == a + b + (["dog"] + a)
    ensures Occurrences(ws, w) == 2 * multiset(a)[w] + multiset(b)[w] + (if w == "dog" then 1 else 0)
  {
  }

  /** A word occurs at most once in a sequence without repeats. */
  lemma {:induction false} AtMostOnce(s: seq<string>, w: string)
    requires forall i, j :: 0 <= i < j < |s| ==> s[i] != s[j]
    ensures multiset(s)[w] <= 1
    ensures multiset(s)[w] == 1 <==> w in s
  {
    if |s| > 0 {
      assert s == [s[0]] + s[1..];
      AtMostOnce(s[1..], w);
      assert w == s[0] ==> w !in s[1..];
    }
  }

  /** "the" is the only word the two halves of the sample share. */
  lemma OnlyCommonWord(a: seq<string>, b: seq<string>, w: string)
    requires a == ["the", "quick", "brown", "fox"] && b == ["jumps", "over", "the", "lazy"]
    ensures w in a && w in b ==> w == "the"
    ensures "the" in a && "the" in b
    ensures "dog" !in a && "dog" !in b
  {
  }
}

=== FILE: wrappers.dfy ===
/** The optional-value type shared by the other modules; Rust's `Option`. */
module Wrappers {

  datatype Option<+T> = None | Some(value: T) {

    /** `unwrap_or`: the held value, or `default` when there is none. */
    function GetOr(default: T): T {
      match this
      case Some(v) => v
      case None => default
    }
  }
}
